=== FILE: README.md ===
# Notes app client core, modelled in Dafny

This project models the client-side core of a small notes web application.
The core has two halves:

- **Signup** (`src/app/signup/page.tsx`): the password-strength meter, the per-country phone rules, the six-box one-time-code editor, and the two-step signup flow. The flow posts the account form, then verifies the emailed code, offers a resend, and has one way back to the form.
- **Dashboard** (`src/app/dashboard/page.tsx`):
  - the client-side note cache: the load filter, update, create, soft delete and the search view;
  - the full-page note viewer and editor (`FullPageNote`), with its unsaved-changes flag, save, close and keyboard shortcuts;
  - the validation of the modal note form (`NoteForm`).

Every handler is a pure function of the page state. Each answer from outside is passed in as a parameter:

- a server reply, as `Gateway.Reply` (`Ok(value)` or `Err(msg)`);
- the answer to a `window.confirm` prompt, as a boolean;
- a key press, as a record.

A handler returns the new state together with the request it sent, if it sent one. So "no request on invalid input" is stated about that returned request.

Files:

| file | module | contents |
|---|---|---|
| wrappers.dfy | `Wrappers`, `Gateway` | `Option`, the server reply type, the `text \|\| fallback` idiom |
| jstext.dfy | `JsText` | the JavaScript string primitives the core relies on: UTF-16 `length`, `trim` with the ECMAScript white-space set, `parseInt`'s NaN test, ASCII case mapping, `includes` |
| seqs.dfy | `Seqs` | `Array.prototype.filter` on sequences, with the subsequence lemmas |
| password.dfy | `Password` | `checkPasswordStrength` |
| phone.dfy | `Phone` | `countryCodes`, `getCurrentCountryInfo`, `validatePhoneNumber`, the phone branch of `handleInputChange` |
| otp.dfy | `Otp` | `handleChange`, `handleKeyDown`, `handlePaste` on the six code boxes |
| signup.dfy | `Signup` | the page state, `handleSubmit`, `verifyOTP`, `resendOTP`, "Back to Sign Up", and the page as a step relation |
| notes.dfy | `Notes` | the note record, and the cache operations as sequence functions |
| note_form.dfy | `NoteForm` | `validateField`, `handleBlur`, the change handlers, `handleSubmit` |
| full_page.dfy | `FullPage` | the `FullPageNote` editor |
| dashboard.dfy | `Dashboard` | `handleSaveNote`, `handleDeleteNote`, `filteredNotes`, the initial fetch, and how the editor and the form meet the cache |

## Model

| member | source | states |
|---|---|---|
| Password.MatchesIffHasClass | src/app/signup/page.tsx:262-271 | each of the four regular-expression tests holds exactly when the password has a character of that class |
| Password.PresentClassesAsUnion | src/app/signup/page.tsx:259-271 | the set of classes present is the union of one singleton per test that matched |
| Password.ScoreCountsClasses | src/app/signup/page.tsx:259-271 | the score is the number of distinct character classes in the password |
| Password.CheckStrength | src/app/signup/page.tsx:249-276 | `empty` exactly for the empty password; a non-empty one shorter than 8 UTF-16 units is `weak`; `strong` implies length at least 8 and at least three classes |
| Password.StrengthByClassCount | src/app/signup/page.tsx:259-275 | from 8 units on, the tier is decided by the class count alone: two classes give `medium`, three or four give `strong`, fewer give `weak` |
| Phone.FindIn | src/app/signup/page.tsx:285 | `find` returns the first country whose code matches, and nothing when no country does |
| Phone.CurrentCountry | src/app/signup/page.tsx:206-210 | the selected country's row, or the first row of the table when the code is unknown |
| Phone.MaxLengthRange | src/app/signup/page.tsx:182-203 | every country in the table requires between 8 and 11 digits |
| Phone.NatToStringRoundTrip | src/app/signup/page.tsx:297 | the digit count in the error message reads back as the number it was written from |
| Phone.LengthMessageCount | src/app/signup/page.tsx:297 | the count in the wrong-length message is the selected country's digit count, a number from 8 to 11 |
| Phone.ValidatePhone | src/app/signup/page.tsx:284-304 | valid exactly for a known code and a non-empty, all-digit number of the country's exact length; an unknown code leaves the error untouched; otherwise the error reads "Phone number should contain only digits", or "Phone number for <country> should be exactly <n> digits", or is cleared exactly when valid |
| Phone.StripNonDigits | src/app/signup/page.tsx:312 | `replace(/\D/g, "")` keeps exactly the digits, in order: each digit as many times as it occurs, every other character not at all |
| Phone.StripDigitsIsIdentity | src/app/signup/page.tsx:312 | a number that is already all digits passes through unchanged |
| Phone.TypePhone | src/app/signup/page.tsx:309-317 | the stripped value replaces the number when it fits the country's length, and the error line becomes that number's validation message (an unknown code leaves it alone); otherwise the keystroke is dropped; a number that fits keeps fitting |
| Phone.TypePhoneErrorLine | src/app/signup/page.tsx:314-316 | an accepted keystroke re-validates, so the error line shows the new number's verdict |
| Otp.InitialWellFormed | src/app/signup/page.tsx:35 | the code starts as six empty boxes |
| Otp.Type | src/app/signup/page.tsx:40-56 | text `parseInt` rejects changes nothing; otherwise only box `index` changes, to the typed value, and the caret moves to the next box unless this is the last one |
| Otp.TypeOneChar | src/app/signup/page.tsx:40-56 | for the one-character values a box accepts, only a digit is written, and the boxes stay well formed |
| Otp.Backspace | src/app/signup/page.tsx:58-80 | Backspace clears a filled box in place; on an empty box it clears the previous box and moves there; on the first empty box, and for any other key, nothing happens |
| Otp.BackspaceWellFormed | src/app/signup/page.tsx:58-80 | backspace keeps six well-formed boxes and a caret on a real box |
| Otp.BackspaceUndoesType | src/app/signup/page.tsx:40-80 | backspace right after typing a digit into an empty box restores the boxes |
| Otp.Paste | src/app/signup/page.tsx:83-106 | an all-digit trimmed paste overwrites the first min(6, n) boxes with its digits in order and leaves the rest alone; the caret goes to the box after the last one written, and stays put when all six were written; anything else is ignored |
| Otp.PasteWellFormed | src/app/signup/page.tsx:83-106 | paste keeps the boxes well formed |
| Otp.JoinOfSlots | src/app/signup/page.tsx:114 | joining well-formed boxes gives one digit per filled box |
| Otp.JoinedLengthSixIffFull | src/app/signup/page.tsx:114-118 | the joined code has length 6 exactly when every box is filled |
| Otp.JoinOfSingles | src/app/signup/page.tsx:89-94 | boxes cut one character at a time from a text join back into that text's prefix |
| Otp.PasteThenJoin | src/app/signup/page.tsx:83-118 | after pasting six or more digits, the code sent for verification is exactly the first six |
| Otp.PasteExample | src/app/signup/page.tsx:83-106 | pasting `123456` into empty boxes gives the boxes `1` to `6` |
| Otp.BackspaceExample | src/app/signup/page.tsx:58-80 | backspace on box 3 holding `7` clears it in place; again, it clears box 2 and moves there |
| Signup.InitInv | src/app/signup/page.tsx:12-37 | the page starts with well-formed code boxes and a phone number its country accepts |
| Signup.InputChange | src/app/signup/page.tsx:306-321 | a phone keystroke goes through `Phone.TypePhone` and touches only the number and its error; email, password and first name each take the typed value and nothing else changes; a fitting number keeps fitting |
| Signup.SelectCountry | src/app/signup/page.tsx:323-331 | switching country sets the code and empties the number and its error |
| Signup.Submit | src/app/signup/page.tsx:368-451 | the account request goes out exactly when the password is `strong` and the phone is valid; it carries the country code prefixed to the number; success moves to the code step with the email remembered and the user id stored; failure shows the server's text or "Something went wrong"; a weak password shows "Please use a strong password for better security" |
| Signup.RejectedFormIgnoresServer | src/app/signup/page.tsx:372-382 | a form that fails its local checks does not depend on the server's answer |
| Signup.VerifyCode | src/app/signup/page.tsx:110-151 | the verify request goes out exactly when the joined code has length 6, carrying the stored user id and the code; a shorter code shows "Please enter all 6 digits of the OTP"; the account becomes verified exactly on an accepted request; the boxes are untouched |
| Signup.VerifySendsIffFull | src/app/signup/page.tsx:114-118 | with well-formed boxes, the verify request goes out exactly when all six are filled |
| Signup.Resend | src/app/signup/page.tsx:153-179 | the resend request always carries the remembered email and user id; the server's message is shown on success, "Failed to resend OTP" on failure; the boxes and the step are untouched |
| Signup.BackToForm | src/app/signup/page.tsx:974-978 | "Back to Sign Up" returns to the form and keeps the form fields, the boxes and the stored ids |
| Signup.Next | src/app/signup/page.tsx:40-451 | only submit, verify and resend send anything |
| Signup.NextPreservesInv | src/app/signup/page.tsx:40-331 | every step keeps the boxes well formed and the phone number acceptable to its country |
| Signup.StepTransitions | src/app/signup/page.tsx:437-444 | the form moves to the code step only on an accepted submit; the way back is only "Back to Sign Up" |
| Signup.VerifiedOnlyByCode | src/app/signup/page.tsx:110-151 | the account becomes verified only through an accepted verify request carrying six filled boxes |
| Signup.ServerStepsKeepCode | src/app/signup/page.tsx:110-179 | verifying and resending never modify the code boxes |
| Notes.Load | src/app/dashboard/page.tsx:620-633 | the cache after the initial fetch is the server list without its soft-deleted notes, in server order, each live note as many times as the server sent it; a failed fetch leaves it empty |
| Notes.LoadExample | src/app/dashboard/page.tsx:626 | a live note and a soft-deleted note load as the live note alone |
| Notes.Rename | src/app/dashboard/page.tsx:656-660 | every note with the id takes the new title and content, keeping its id, date and deleted flag; every other note, the length and the order are unchanged |
| Notes.RenameIdempotent | src/app/dashboard/page.tsx:656-660 | applying the same update twice equals applying it once |
| Notes.RenameAbsent | src/app/dashboard/page.tsx:656-660 | an update for an id the cache does not hold leaves the cache unchanged |
| Notes.RemoveId | src/app/dashboard/page.tsx:725 | removal keeps every note without the id, in order and as many times as it occurred, and no note with it |
| Notes.RemoveUndoesPrepend | src/app/dashboard/page.tsx:686-725 | deleting a freshly created note with a new id restores the cache it was prepended to |
| Notes.RemoveIdempotent | src/app/dashboard/page.tsx:725 | deleting twice equals deleting once |
| Notes.Search | src/app/dashboard/page.tsx:738-742 | a note is shown exactly when the lowercased query occurs in its lowercased title or content, as many times as the cache holds it; the view is an order-preserving subsequence of the cache |
| Notes.SearchEmptyQuery | src/app/dashboard/page.tsx:738-742 | an empty query shows every note |
| Notes.SearchAfterRemove | src/app/dashboard/page.tsx:725-742 | searching and deleting commute |
| Notes.SearchAfterPrepend | src/app/dashboard/page.tsx:686-742 | a created note heads the view exactly when it matches the query; the rest of the view is the old view |
| Notes.LiveCacheKept | src/app/dashboard/page.tsx:626-725 | loading, updating, deleting and prepending a live note never put a soft-deleted note in the cache |
| Notes.RemoveKeepsLive | src/app/dashboard/page.tsx:725 | deleting from a cache of live notes leaves only live notes |
| NoteForm.Mount | src/app/dashboard/page.tsx:917-933 | the form opens on the note's title and content, or blank, with no errors and nothing visited |
| NoteForm.ValidateField | src/app/dashboard/page.tsx:935-940 | a field passes exactly when its trimmed value is non-empty; otherwise the error is "<Name> is required", with the name's first letter upper-cased |
| NoteForm.RequiredMessages | src/app/dashboard/page.tsx:935-940 | a value of nothing but whitespace gets "Title is required" or "Content is required"; any other value gets no error |
| NoteForm.Change | src/app/dashboard/page.tsx:987-995 | typing changes only that field's value and, once the field has been visited, re-validates its error; the other field's value and error and both visited flags are unchanged |
| NoteForm.Blur | src/app/dashboard/page.tsx:942-951 | leaving a field marks it visited and validates it |
| NoteForm.Submit | src/app/dashboard/page.tsx:953-972 | the draft is handed on exactly when neither field is blank; both fields are validated and marked visited |
| NoteForm.ErrorsStayCurrent | src/app/dashboard/page.tsx:928-1026 | the error under every visited field is always that field's current verdict |
| FullPage.Settle | src/app/dashboard/page.tsx:346-352 | the change effect recomputes the flag only when the draft or the note changed, and then the flag is truthful |
| FullPage.Mount | src/app/dashboard/page.tsx:308-328 | the editor opens on the note's text, editing only in create mode, with a truthful flag that is clear for an existing note |
| FullPage.MountCreateClean | src/app/dashboard/page.tsx:894-904 | the blank create surface opens with nothing unsaved |
| FullPage.SetDraft | src/app/dashboard/page.tsx:466-539 | typing sets the draft and keeps the flag truthful |
| FullPage.StartEditing | src/app/dashboard/page.tsx:473-546 | entering edit mode changes nothing else |
| FullPage.Revert | src/app/dashboard/page.tsx:485-490 | cancel puts the note's text back and leaves edit mode; for an existing note nothing is then unsaved |
| FullPage.SaveableIsTrimGuard | src/app/dashboard/page.tsx:355 | a draft counts as saveable exactly when both trimmed fields are non-empty |
| FullPage.CallOf | src/app/dashboard/page.tsx:354-362 | the editor calls the save handler exactly when both trimmed fields are non-empty, with the note's id and the draft |
| FullPage.Accepted | src/app/dashboard/page.tsx:664-687 | an accepted create closes the surface; an accepted update resets the editor on the saved text, in view mode, with nothing unsaved |
| FullPage.SaveAsWritten | src/app/dashboard/page.tsx:354-376 | as written, a refused update still leaves edit mode and clears the flag while the unsaved draft stays on screen; a refused create leaves the create editor blank, with nothing unsaved |
| FullPage.SaveAsWrittenBlanksCreate | src/app/dashboard/page.tsx:317-376 | a refused create, as written, empties a create editor that held a draft, and reports nothing unsaved |
| FullPage.SaveAsWrittenConsistency | src/app/dashboard/page.tsx:346-376 | as written, the flag is wrong after a save only after a refused update of a changed draft |
| FullPage.SaveAsWrittenLosesDraft | src/app/dashboard/page.tsx:354-435 | a refused Ctrl/Cmd+Enter update leaves a flag that lies about the draft, and Escape then closes the editor without a prompt |
| FullPage.Save | src/app/dashboard/page.tsx:354-376 | the save handler is called only for a non-blank draft; an accepted save behaves as written; a refused one leaves the editor as it was |
| FullPage.SaveKeepsConsistent | src/app/dashboard/page.tsx:346-376 | after a save the open editor's flag is truthful, whatever the server answered |
| FullPage.RefusedSaveKeepsDraft | src/app/dashboard/page.tsx:354-376 | a refused save keeps the draft and its unsaved status |
| FullPage.HandleKey | src/app/dashboard/page.tsx:402-435 | Escape while editing an existing note leaves edit mode, asking first and reverting on a yes when there are changes; otherwise Escape closes; Ctrl/Cmd+Enter saves while the inputs are shown; `e` outside the inputs enters edit mode for an existing note; any other key changes nothing |
| FullPage.KeyDown | src/app/dashboard/page.tsx:402-435 | the key handler with the corrected save: Ctrl/Cmd+Enter runs `FullPage.Save`; Escape never saves; any save call is the current draft; the editor closes only on Escape or a save that closes it |
| FullPage.KeyDownAsWritten | src/app/dashboard/page.tsx:402-435 | the key handler as written: Ctrl/Cmd+Enter runs `FullPage.SaveAsWritten`; Escape never saves; any save call is the current draft |
| FullPage.KeyDownVariantsAgree | src/app/dashboard/page.tsx:354-435 | the two key handlers differ only on a Ctrl/Cmd+Enter save of a saveable draft that the server refused |
| FullPage.EscapeAsksBeforeDiscarding | src/app/dashboard/page.tsx:405-419 | with a truthful flag, Escape never drops a changed draft without a confirmed prompt, in both key handlers |
| FullPage.KeyDownKeepsConsistent | src/app/dashboard/page.tsx:402-435 | with the corrected save, every key press keeps the flag truthful |
| FullPage.CloseRequest | src/app/dashboard/page.tsx:378-386 | the back arrow always unmounts the editor; it starts a save only when there are changes, the user agreed, and the draft is not blank (what the dashboard then shows is `Dashboard.CloseFullPageAsWritten`) |
| FullPage.CloseSavesDirtyDraft | src/app/dashboard/page.tsx:378-386 | with a truthful flag, a changed saveable draft the user agrees to keep is handed on when closing |
| FullPage.Dispatch | src/app/dashboard/page.tsx:378-546 | typing sets the draft, the edit button enters edit mode, cancel reverts, a key goes to the key handler, the save button saves, and the back arrow runs the close request |
| FullPage.Next | src/app/dashboard/page.tsx:378-546 | with the corrected save, any save call an event makes is the editor's current draft, and the save button and Ctrl/Cmd+Enter run `FullPage.Save` |
| FullPage.NextAsWritten | src/app/dashboard/page.tsx:378-546 | as written, any save call an event makes is the editor's current draft, and the save button and Ctrl/Cmd+Enter run `FullPage.SaveAsWritten` |
| FullPage.NextKeepsConsistent | src/app/dashboard/page.tsx:346-546 | with the corrected save, the flag stays truthful through every event |
| FullPage.NextAsWrittenConsistency | src/app/dashboard/page.tsx:346-546 | as written, the flag goes wrong only after a refused save of an existing note whose draft differs from it |
| Dashboard.Init | src/app/dashboard/page.tsx:620-633 | the dashboard starts on the loaded cache, which holds no soft-deleted note, with nothing open |
| Dashboard.Visible | src/app/dashboard/page.tsx:738-742 | the notes on screen are exactly the cached notes matching the query, in cache order, each as many times as the cache holds it |
| Dashboard.SaveNote | src/app/dashboard/page.tsx:638-694 | a blank field sends nothing and changes nothing; a non-empty id sends an update, and on success renames the note, closes the edit modal on it and refreshes the full-page copy; the empty id sends a create, and on success prepends the server's note and closes both create surfaces; a failure changes nothing but the in-flight flag, which a create also clears on success and a successful update leaves alone |
| Dashboard.DeleteNote | src/app/dashboard/page.tsx:716-729 | the soft delete is always sent; on success the note leaves the cache; on failure nothing changes |
| Dashboard.DeleteFromFullPage | src/app/dashboard/page.tsx:517-520 | the delete button deletes the shown note and closes the view whatever the server answers |
| Dashboard.FormGuardMatchesSaveGuard | src/app/dashboard/page.tsx:639-972 | the form submits a draft exactly when the save handler sends a request for it |
| Dashboard.HandlersKeepCacheLive | src/app/dashboard/page.tsx:638-729 | save and delete keep the cache free of soft-deleted notes |
| Dashboard.CreateThenDelete | src/app/dashboard/page.tsx:680-725 | creating a note and then deleting it restores the original cache |
| Dashboard.FullPageCreateAgrees | src/app/dashboard/page.tsx:680-692 | an accepted save from the create surface adds the note and closes the surface on both sides |
| Dashboard.FullPageSaveAgrees | src/app/dashboard/page.tsx:664-668 | after an accepted update from the editor, the dashboard's full-page note is the one the editor is reset on, carrying the draft, with nothing unsaved |
| Dashboard.RefusedFullPageSaveKeepsDraft | src/app/dashboard/page.tsx:688-694 | a refused update changes nothing on the dashboard, and the corrected editor keeps the draft |
| Dashboard.RefusedFullPageCreateAsWritten | src/app/dashboard/page.tsx:670-694 | a refused create from the full-page surface only clears the busy flag and keeps the surface mounted, while the editor as written is left blank |
| Dashboard.CloseFullPageAsWritten | src/app/dashboard/page.tsx:378-386 | the back arrow as written: the surface closes and the agreed save is sent, but an accepted update of the note shown sets the full-page note again, with the saved text, so the view reopens; any other outcome leaves it closed |
| Dashboard.CloseFullPage | src/app/dashboard/page.tsx:378-386 | the back arrow as evidently intended: the agreed save is sent and its result reaches the cache, and the surface stays closed whatever the server answers |
| Dashboard.CloseVariantsAgree | src/app/dashboard/page.tsx:378-386 | the two back arrows send the same request and leave the same dashboard apart from the note view, and differ exactly on an accepted update of an existing note |
| Dashboard.BackArrowReopensView | src/app/dashboard/page.tsx:378-386 | after a confirmed save-on-close that the server accepts, the editor reports itself closed while the dashboard as written shows the note again |

## Left out

- Network I/O, JSON and text parsing of responses, toasts, the router and the `setTimeout` redirect after verification. Each server exchange is one reply parameter.
- The avatar upload, the token probe, the profile fetch, logout, the resize-driven button, the country dropdown's click-outside listener, and all rendering.
- DOM focus. The code editor's caret is an `Option<nat>`: `None` until a handler first moves it.
- `window.confirm`. Its answer is a boolean parameter.
- The `loading`, `isSaving` and `isLoading` flags, and async interleaving. Each handler is atomic over its reply, so a second request while one is in flight is not modelled.
- Date formatting with `toLocaleDateString`. It depends on the locale.
- Unicode case mapping. `toLowerCase` and `toUpperCase` map ASCII letters only.
- JavaScript `length` counts UTF-16 units. Characters outside the Basic Multilingual Plane count twice; the classes in `checkPasswordStrength` are tested per code point.
- The `e.preventDefault()` calls.
- The create surface is mounted on an object literal that is new on every render of the dashboard, so every dashboard render resets the create editor and empties its draft. The render a create save causes by marking the dashboard busy is modelled, in `FullPage.SaveAsWritten`. Other renders are not modelled, although they blank the draft too: a resize across 768 pixels (the floating button's listener), the floating button's one-second timer, and the reply to an earlier request landing.
- `Dashboard.SaveNote`: the `isCreating` flag's value while a create is in flight is not kept, because each handler is one atomic step over its reply. Its one visible effect, the re-render that empties the create editor, is modelled in `FullPage.SaveAsWritten`.
- `Signup.Resend`: the server's answer is taken at face value. The source never checks `response.ok` on resend, so a failure status that still parses shows its message as if it had succeeded.
- `Dashboard.SaveNote`: an update's reply body is never read, so its `Ok` value is ignored. An update whose id the cache does not hold is still sent, and it changes no note.
- `Dashboard.SaveNote`: the handler works on the dashboard as it was when the save began, and it is applied here to the dashboard the reply lands on. Each handler is atomic, so the two agree, except after the back arrow, which closes the view while its own save is in flight. That case is modelled separately, in `Dashboard.CloseFullPageAsWritten`.

Two behaviours of the code are modelled as written, although they may not be what the authors had in mind:

- A paste of six or more digits leaves the caret where it was, rather than moving it past the last box.
- A refused resend always shows the generic "Failed to resend OTP".

The full-page save is modelled twice; see the Findings below. `FullPage.SaveAsWritten`, `FullPage.KeyDownAsWritten` and `FullPage.NextAsWritten` follow the code. `FullPage.Save`, `FullPage.KeyDown` and `FullPage.Next` use the evidently intended failure path, and the consistency lemmas `FullPage.KeyDownKeepsConsistent` and `FullPage.NextKeepsConsistent` are stated for those.

## Findings

| source | as written | input that shows it | evidently intended | confidence | as-written member | corrected member |
|---|---|---|---|---|---|---|
| src/app/dashboard/page.tsx:354-376 | `handleSave` awaits the dashboard's save handler. That handler catches every failure itself (lines 688-694), so the editor always continues as if the save succeeded: it leaves edit mode for an existing note and clears `hasChanges`. A create also marks the dashboard busy (line 672), and the re-render hands the create surface a new blank note (lines 894-904), which empties the inputs | edit an existing note, then press Ctrl+Enter while the server refuses the update: the unsaved draft is shown in view mode as if saved, and Escape closes the editor without a prompt, losing it. Or type a new note in the full-page create surface and save while the server refuses it: the inputs come back empty | a refused save leaves the editor as it was, with the draft on screen and still marked unsaved | not executed | FullPage.SaveAsWritten, FullPage.KeyDownAsWritten, FullPage.NextAsWritten, FullPage.SaveAsWrittenLosesDraft, FullPage.SaveAsWrittenBlanksCreate | FullPage.Save, FullPage.KeyDown, FullPage.Next |
| src/app/dashboard/page.tsx:378-386 | `handleClose` starts `handleSave` without awaiting it and calls `onClose` at once, which clears the full-page note. The save handler it reaches still holds the dashboard from before the close, so an accepted update finds the note open there and sets it again (lines 666-667) | open an existing note full-page, edit it, click the back arrow and agree to save; the server accepts the update; the view closes and then reopens on the saved note | the view stays closed once the user has closed it, and the save only updates the cache | not executed | Dashboard.CloseFullPageAsWritten, Dashboard.BackArrowReopensView | Dashboard.CloseFullPage |

=== FILE: dashboard.dfy ===
/**
  The dashboard's note cache and the surfaces around it: the create and edit
  modals, the full-page view of one note, the full-page create surface and the
  search box. Each handler takes the server's reply as a parameter and returns
  the new dashboard and the request it sent, if any.
 */
module Dashboard {
  import opened Wrappers
  import opened Gateway
  import opened JsText
  import opened Seqs
  import opened Notes
  import NoteForm
  import FullPage

  /** The dashboard's state: the cache, the create-in-flight flag, which
      surfaces are open, the note the edit modal and the full-page view are on,
      and the search query. */
  datatype Dashboard = Dashboard(
    notes: seq<Note>,
    isCreating: bool,
    createModalOpen: bool,
    editModalOpen: bool,
    selectedNote: Option<Note>,
    fullPageNote: Option<Note>,
    fullPageCreate: bool,
    query: string)

  /** A request to the notes endpoint. */
  datatype NoteRequest =
    | UpdateNote(noteId: string, title: string, content: string)
    | CreateNote(title: string, content: string)
    | SoftDelete(noteId: string)

  /** A dashboard after a handler, and what the handler sent. */
  datatype Step = Step(dash: Dashboard, sent: Option<NoteRequest>)

  /** The dashboard once the initial fetch has answered: the live notes, or
      nothing when the fetch failed; no surface open, no query. */
  function Init(reply: Reply<seq<Note>>): (d: Dashboard)
    ensures d.notes == Load(reply)
    ensures AllLive(d.notes)
    ensures !d.isCreating && !d.createModalOpen && !d.editModalOpen && !d.fullPageCreate
    ensures d.selectedNote == None && d.fullPageNote == None && d.query == ""
  {
    Dashboard(Load(reply), false, false, false, None, None, false, "")
  }

  /** The notes on screen: the cache narrowed by the search query. */
  function Visible(d: Dashboard): (r: seq<Note>)
    ensures IsSubseq(r, d.notes)
    ensures forall i :: 0 <= i < |r| ==> Matches(r[i], d.query)
    ensures forall i :: 0 <= i < |d.notes| && Matches(d.notes[i], d.query) ==> d.notes[i] in r
    ensures forall n :: multiset(r)[n] == if Matches(n, d.query) then multiset(d.notes)[n] else 0
  {
    Search(d.notes, d.query)
  }

  /** `handleSaveNote(noteId, title, content)`. A blank title or content sends
      nothing. A non-empty id sends an update; when it succeeds, every cached
      note with the id takes the new text, the edit modal closes if it was on
      that note, and the full-page note is refreshed if it is that note (the
      body of an update's reply is never read). The empty id sends a create;
      when it succeeds, the created note heads the cache and both create
      surfaces close. Every failure is caught, and it only clears the
      create-in-flight flag; a successful update leaves that flag alone.
      The flag's value while a create is in flight is not kept: the handler
      is one step here. */
  function SaveNote(d: Dashboard, noteId: string, title: string, content: string, reply: Reply<Note>): (r: Step)
    ensures r.sent.None? <==> IsBlank(title) || IsBlank(content)
    ensures r.sent.None? ==> r.dash == d
    ensures r.sent.Some? ==> r.dash.query == d.query && r.dash.selectedNote == d.selectedNote
    ensures r.sent.Some? && (noteId == "" || reply.Err?) ==> !r.dash.isCreating
    ensures r.sent.Some? && noteId != "" && reply.Ok? ==> r.dash.isCreating == d.isCreating
    ensures r.sent.Some? && reply.Err? ==> r.dash == d.(isCreating := false)
    ensures r.sent.Some? && noteId != "" ==>
      && r.sent.value == UpdateNote(noteId, title, content)
      && (reply.Ok? ==>
        && r.dash.notes == Rename(d.notes, noteId, title, content)
        && r.dash.editModalOpen == (d.editModalOpen && !(d.selectedNote.Some? && d.selectedNote.value.id == noteId))
        && (d.fullPageNote.Some? && d.fullPageNote.value.id == noteId ==>
              r.dash.fullPageNote == Some(d.fullPageNote.value.(title := title, content := content)))
        && (!(d.fullPageNote.Some? && d.fullPageNote.value.id == noteId) ==> r.dash.fullPageNote == d.fullPageNote)
        && r.dash.createModalOpen == d.createModalOpen && r.dash.fullPageCreate == d.fullPageCreate)
    ensures r.sent.Some? && noteId == "" ==>
      && r.sent.value == CreateNote(title, content)
      && (reply.Ok? ==>
        && r.dash.notes == [reply.value] + d.notes
        && !r.dash.createModalOpen && !r.dash.fullPageCreate
        && r.dash.editModalOpen == d.editModalOpen && r.dash.fullPageNote == d.fullPageNote)
  {
    if IsBlank(title) || IsBlank(content) then Step(d, None)
    else if noteId != "" then
      var sent := Some(UpdateNote(noteId, title, content));
      match reply
      case Err(_) => Step(d.(isCreating := false), sent)
      case Ok(_) =>
        var editOpen := if d.selectedNote.Some? && d.selectedNote.value.id == noteId then false else d.editModalOpen;
        var full := if d.fullPageNote.Some? && d.fullPageNote.value.id == noteId
                    then Some(d.fullPageNote.value.(title := title, content := content))
                    else d.fullPageNote;
        Step(d.(notes := Rename(d.notes, noteId, title, content), editModalOpen := editOpen, fullPageNote := full), sent)
    else
      var sent := Some(CreateNote(title, content));
      match reply
      case Err(_) => Step(d.(isCreating := false), sent)
      case Ok(n) =>
        Step(d.(notes := [n] + d.notes, createModalOpen := false, fullPageCreate := false, isCreating := false), sent)
  }

  /** `handleDeleteNote(noteId)`: always sends the soft delete; when it
      succeeds, the note leaves the cache; a failure changes nothing. */
  function DeleteNote(d: Dashboard, noteId: string, reply: Reply<()>): (r: Step)
    ensures r.sent == Some(SoftDelete(noteId))
    ensures reply.Ok? ==> r.dash == d.(notes := RemoveId(d.notes, noteId))
    ensures reply.Err? ==> r.dash == d
    ensures !HasId(r.dash.notes, noteId) || reply.Err?
  {
    var sent := Some(SoftDelete(noteId));
    match reply
    case Ok(_) => Step(d.(notes := RemoveId(d.notes, noteId)), sent)
    case Err(_) => Step(d, sent)
  }

  /** The delete button of the full-page view: it deletes the note shown and
      closes the view whatever the server answers. */
  function DeleteFromFullPage(d: Dashboard, reply: Reply<()>): (r: Step)
    requires d.fullPageNote.Some?
    ensures r.sent == Some(SoftDelete(d.fullPageNote.value.id))
    ensures r.dash.fullPageNote == None
    ensures reply.Ok? ==> r.dash.notes == RemoveId(d.notes, d.fullPageNote.value.id)
    ensures reply.Err? ==> r.dash.notes == d.notes
  {
    var s := DeleteNote(d, d.fullPageNote.value.id, reply);
    Step(s.dash.(fullPageNote := None), s.sent)
  }

  /** The dashboard a full-page surface closes to: `onClose` of the create
      surface unmounts it, that of the note view clears the note shown. The
      create surface is mounted on a note with the empty id, the view on the
      note shown. */
  function Closed(d: Dashboard, e: FullPage.Editor): (r: Dashboard)
    ensures e.createMode ==> r == d.(fullPageCreate := false)
    ensures !e.createMode ==> r == d.(fullPageNote := None)
  {
    if e.createMode then d.(fullPageCreate := false) else d.(fullPageNote := None)
  }

  /** The back arrow of a full-page surface as written. `handleClose` starts
      the save without waiting for it and closes at once; the save handler
      it starts still sees the dashboard from before the close, and its state
      updates land on the closed dashboard. So when an accepted update finds
      the note it refreshes still open in its own view of the dashboard, it
      sets the full-page note again, and the view reopens. */
  function CloseFullPageAsWritten(d: Dashboard, e: FullPage.Editor, confirmed: bool, reply: Reply<Note>): (r: Step)
    requires if e.createMode then d.fullPageCreate && e.note.id == "" else d.fullPageNote == Some(e.note)
    ensures r.sent.Some? <==> e.hasChanges && confirmed && FullPage.Saveable(e)
    ensures r.sent.Some? ==>
      r.sent.value == if e.note.id == "" then CreateNote(e.title, e.content) else UpdateNote(e.note.id, e.title, e.content)
    ensures e.createMode ==> !r.dash.fullPageCreate
    ensures !e.createMode && r.sent.Some? && reply.Ok? && e.note.id != "" ==>
      r.dash.fullPageNote == Some(e.note.(title := e.title, content := e.content))
    ensures !(!e.createMode && r.sent.Some? && reply.Ok? && e.note.id != "") ==>
      r.dash.fullPageNote == Closed(d, e).fullPageNote
  {
    var closed := Closed(d, e);
    match FullPage.CloseRequest(e, confirmed).call
    case None => Step(closed, None)
    case Some(c) =>
      var s := SaveNote(d, c.noteId, c.title, c.content, reply);
      var refreshed := reply.Ok? && c.noteId != "" && d.fullPageNote.Some? && d.fullPageNote.value.id == c.noteId;
      if e.createMode then Step(s.dash.(fullPageCreate := false), s.sent)
      else Step(s.dash.(fullPageNote := if refreshed then s.dash.fullPageNote else None), s.sent)
  }

  /** The back arrow as evidently intended: the save acts on the dashboard as
      it is after the close, so the surface stays closed whatever the server
      answers. */
  function CloseFullPage(d: Dashboard, e: FullPage.Editor, confirmed: bool, reply: Reply<Note>): (r: Step)
    requires if e.createMode then d.fullPageCreate && e.note.id == "" else d.fullPageNote == Some(e.note)
    ensures r.sent.Some? <==> e.hasChanges && confirmed && FullPage.Saveable(e)
    ensures e.createMode ==> !r.dash.fullPageCreate
    ensures !e.createMode ==> r.dash.fullPageNote == None
    ensures r.sent.Some? && reply.Ok? && e.note.id != "" ==> r.dash.notes == Rename(d.notes, e.note.id, e.title, e.content)
    ensures r.sent.Some? && reply.Ok? && e.note.id == "" ==> r.dash.notes == [reply.value] + d.notes
    ensures r.sent.None? || reply.Err? ==> r.dash.notes == d.notes
  {
    var closed := Closed(d, e);
    match FullPage.CloseRequest(e, confirmed).call
    case None => Step(closed, None)
    case Some(c) => SaveNote(closed, c.noteId, c.title, c.content, reply)
  }

  /** The two back arrows send the same request and leave the same dashboard
      except for the note view, and they differ exactly when an accepted
      update of an existing note reopens it. */
  lemma CloseVariantsAgree(d: Dashboard, e: FullPage.Editor, confirmed: bool, reply: Reply<Note>)
    requires if e.createMode then d.fullPageCreate && e.note.id == "" else d.fullPageNote == Some(e.note)
    ensures var w := CloseFullPageAsWritten(d, e, confirmed, reply);
      var c := CloseFullPage(d, e, confirmed, reply);
      w.sent == c.sent && w.dash.(fullPageNote := c.dash.fullPageNote) == c.dash
    ensures CloseFullPageAsWritten(d, e, confirmed, reply).dash.fullPageNote != CloseFullPage(d, e, confirmed, reply).dash.fullPageNote
      <==> !e.createMode && e.hasChanges && confirmed && FullPage.Saveable(e) && reply.Ok? && e.note.id != ""
  {
  }

  /** Saving a changed note on the way out by the back arrow, as written: the
      editor reports itself closed, yet once the server accepts the update the
      dashboard shows the note again, with the saved text. */
  lemma BackArrowReopensView(d: Dashboard, e: FullPage.Editor, n: Note)
    requires d.fullPageNote == Some(e.note) && !e.createMode && e.note.id != ""
    requires FullPage.Consistent(e) && FullPage.Dirty(e) && FullPage.Saveable(e)
    ensures FullPage.CloseRequest(e, true).view == FullPage.Closed
    ensures CloseFullPage(d, e, true, Ok(n)).dash.fullPageNote == None
    ensures CloseFullPageAsWritten(d, e, true, Ok(n)).dash.fullPageNote == Some(e.note.(title := e.title, content := e.content))
  {
  }

  /** The modal form and the save handler agree on what may be saved: the
      form submits a draft exactly when the handler then sends a request for
      it. */
  lemma FormGuardMatchesSaveGuard(f: NoteForm.Form, d: Dashboard, noteId: string, reply: Reply<Note>)
    ensures NoteForm.Submit(f).submitted.Some? <==> SaveNote(d, noteId, f.title, f.content, reply).sent.Some?
  {
  }

  /** Every handler keeps the cache free of soft-deleted notes, given a server
      that returns a live note on create. */
  lemma HandlersKeepCacheLive(d: Dashboard, noteId: string, title: string, content: string,
                              created: Reply<Note>, deleted: Reply<()>)
    requires AllLive(d.notes)
    requires created.Ok? ==> IsLive(created.value)
    ensures AllLive(SaveNote(d, noteId, title, content, created).dash.notes)
    ensures AllLive(DeleteNote(d, noteId, deleted).dash.notes)
  {
    if created.Ok? {
      LiveCacheKept(d.notes, created.value, noteId, title, content, Ok([]));
    } else {
      LiveCacheKept(d.notes, Note("", "", "", "", false), noteId, title, content, Ok([]));
    }
  }

  /** Creating a note and then deleting it, both accepted, gives back the
      cache the dashboard started with, provided the server chose a fresh id. */
  lemma CreateThenDelete(d: Dashboard, title: string, content: string, n: Note)
    requires !IsBlank(title) && !IsBlank(content)
    requires !HasId(d.notes, n.id)
    ensures var c := SaveNote(d, "", title, content, Ok(n));
      c.sent == Some(CreateNote(title, content)) &&
      c.dash.notes == [n] + d.notes &&
      DeleteNote(c.dash, n.id, Ok(())).dash.notes == d.notes
  {
    RemoveUndoesPrepend(n, d.notes);
  }

  /** An accepted save from the full-page create surface adds the note and
      closes the surface on both sides: the dashboard unmounts it and the
      editor reports itself closed. */
  lemma FullPageCreateAgrees(d: Dashboard, e: FullPage.Editor, n: Note)
    requires d.fullPageCreate && e.createMode && e.note.id == ""
    requires FullPage.Saveable(e)
    ensures var call := FullPage.CallOf(e).value;
      var s := SaveNote(d, call.noteId, call.title, call.content, Ok(n));
      s.sent == Some(CreateNote(e.title, e.content)) &&
      s.dash.notes == [n] + d.notes && !s.dash.fullPageCreate &&
      FullPage.Save(e, true).view == FullPage.Closed
  {
  }

  /** The full-page editor and the dashboard agree after an accepted update
      made from the editor: the note the editor is reset on is the note the
      dashboard now shows, it carries the draft, and the editor reports
      nothing unsaved. */
  lemma FullPageSaveAgrees(d: Dashboard, e: FullPage.Editor)
    requires d.fullPageNote == Some(e.note) && !e.createMode && e.note.id != ""
    requires FullPage.Saveable(e)
    ensures var call := FullPage.CallOf(e).value;
      var s := SaveNote(d, call.noteId, call.title, call.content, Ok(e.note));
      var v := FullPage.Save(e, true).view;
      v.Open? && s.dash.fullPageNote == Some(v.editor.note) &&
      v.editor.title == e.title && v.editor.content == e.content &&
      FullPage.Consistent(v.editor) && !v.editor.hasChanges
  {
  }

  /** After a refused update from the full-page editor the dashboard is as it
      was and, with the corrected save, the editor still holds the draft as
      unsaved: nothing the user typed is lost. */
  lemma RefusedFullPageSaveKeepsDraft(d: Dashboard, e: FullPage.Editor, msg: string)
    requires d.fullPageNote == Some(e.note) && !e.createMode && !d.isCreating
    requires FullPage.Saveable(e) && FullPage.Consistent(e)
    ensures var call := FullPage.CallOf(e).value;
      SaveNote(d, call.noteId, call.title, call.content, Err(msg)).dash == d &&
      FullPage.Save(e, false).view == FullPage.Open(e)
  {
  }

  /** A refused create from the full-page surface, as written: the dashboard
      only clears its busy flag and keeps the surface mounted, while the
      editor on it is left blank, with nothing reported unsaved. */
  lemma RefusedFullPageCreateAsWritten(d: Dashboard, e: FullPage.Editor, msg: string)
    requires d.fullPageCreate && e.createMode && e.note.id == ""
    requires FullPage.Saveable(e)
    ensures var call := FullPage.CallOf(e).value;
      var s := SaveNote(d, call.noteId, call.title, call.content, Err(msg));
      var v := FullPage.SaveAsWritten(e, false).view;
      s.sent == Some(CreateNote(e.title, e.content)) && s.dash == d.(isCreating := false) &&
      s.dash.fullPageCreate && v.Open? && v.editor.title == "" && v.editor.content == "" &&
      !v.editor.hasChanges
  {
  }
}

=== FILE: full_page.dfy ===
/**
  `FullPageNote`, the full-screen viewer and editor of one note (or of a new
  note, in create mode). The editor keeps a draft title and content beside the
  note it was opened on, and a `hasChanges` flag that an effect recomputes
  whenever the draft or the note changes. The dashboard always mounts it on a
  note: the selected one, or in create mode a blank literal whose id is empty.

  Saving goes through the dashboard's save handler, whose outcome reaches the
  editor only as "it returned"; the parameter `saved` stands for whether the
  server accepted the save.
 */
module FullPage {
  import opened Wrappers
  import opened JsText
  import opened Notes

  /** The editor: the note it shows, whether it creates a note, whether the
      inputs are shown, the draft, and the unsaved-changes flag. */
  datatype Editor = Editor(note: Note, createMode: bool, editing: bool,
                           title: string, content: string, hasChanges: bool)

  /** What the unsaved-changes effect computes: in create mode, a draft with
      anything but whitespace in it; otherwise, a draft that differs from the
      note. */
  predicate Dirty(e: Editor) {
    if e.createMode then !IsBlank(e.title) || !IsBlank(e.content)
    else e.title != e.note.title || e.content != e.note.content
  }

  /** The flag tells the truth about the draft. */
  predicate Consistent(e: Editor) {
    e.hasChanges == Dirty(e)
  }

  /** The unsaved-changes effect: it runs after a render only when the draft
      or the note changed since the previous one, and then recomputes the flag. */
  function Settle(before: Editor, after: Editor): (r: Editor)
    ensures r.(hasChanges := after.hasChanges) == after
    ensures (after.title != before.title || after.content != before.content || after.note != before.note) ==>
      Consistent(r)
    ensures Consistent(before) && after.(editing := before.editing) == before ==> Consistent(r)
  {
    if after.title != before.title || after.content != before.content || after.note != before.note
    then after.(hasChanges := Dirty(after))
    else after
  }

  /** Mounting on a note, and the reset effect whenever the note changes: the
      draft is the note's text, the inputs are shown only in create mode, and
      the flag is what the change effect computes for that draft. */
  function Mount(note: Note, createMode: bool): (r: Editor)
    ensures r.note == note && r.createMode == createMode && r.editing == createMode
    ensures r.title == note.title && r.content == note.content
    ensures Consistent(r)
    ensures !createMode ==> !r.hasChanges
  {
    var e := Editor(note, createMode, createMode, note.title, note.content, false);
    e.(hasChanges := Dirty(e))
  }

  /** The blank note create mode is mounted on starts with nothing unsaved. */
  lemma MountCreateClean(note: Note)
    requires note.title == "" && note.content == ""
    ensures !Mount(note, true).hasChanges
  {
    assert IsBlank("");
  }

  /** Typing into the title or content input (shown while editing or in
      create mode). */
  function SetDraft(e: Editor, title: string, content: string): (r: Editor)
    requires e.editing || e.createMode
    ensures r.title == title && r.content == content
    ensures r.note == e.note && r.createMode == e.createMode && r.editing == e.editing
    ensures Consistent(e) ==> Consistent(r)
  {
    Settle(e, e.(title := title, content := content))
  }

  /** Entering edit mode: the edit button, a click on the shown title or
      content. */
  function StartEditing(e: Editor): (r: Editor)
    ensures r == e.(editing := true)
    ensures Consistent(e) ==> Consistent(r)
  {
    e.(editing := true)
  }

  /** Throwing the draft away (the cancel button, or a confirmed Escape): the
      draft is the note's text again and the inputs are hidden. */
  function Revert(e: Editor): (r: Editor)
    ensures r.title == e.note.title && r.content == e.note.content && !r.editing
    ensures r.note == e.note && r.createMode == e.createMode
    ensures Consistent(e) ==> Consistent(r)
    ensures Consistent(e) && !e.createMode ==> !r.hasChanges
  {
    Settle(e, e.(title := e.note.title, content := e.note.content, editing := false))
  }

  /** What `handleSave` hands the dashboard's save handler. */
  datatype SaveCall = SaveCall(noteId: string, title: string, content: string)

  /** The editor is mounted with this state, or unmounted. */
  datatype View = Open(editor: Editor) | Closed

  /** A view after an event and the save call the event made, if any. */
  datatype Outcome = Outcome(view: View, call: Option<SaveCall>)

  /** The draft can be saved: neither field is blank. */
  predicate Saveable(e: Editor) {
    !IsBlank(e.title) && !IsBlank(e.content)
  }

  /** `Saveable` is the guard `handleSave` writes with `trim`. */
  lemma SaveableIsTrimGuard(e: Editor)
    ensures Saveable(e) <==> Trim(e.title) != "" && Trim(e.content) != ""
  {
    TrimEmptyIffBlank(e.title);
    TrimEmptyIffBlank(e.content);
  }

  /** The call `handleSave` makes: none for a blank draft, otherwise the draft
      under the note's id (the empty id in create mode). */
  function CallOf(e: Editor): (r: Option<SaveCall>)
    ensures r.Some? <==> Trim(e.title) != "" && Trim(e.content) != ""
    ensures r.Some? ==> r.value.noteId == e.note.id && r.value.title == e.title && r.value.content == e.content
  {
    SaveableIsTrimGuard(e);
    if Saveable(e) then Some(SaveCall(e.note.id, e.title, e.content)) else None
  }

  /** What an accepted save does to the editor's surroundings: a created note
      closes the create surface, an updated one comes back as the note prop
      with the draft's text, which resets the editor on it. */
  function Accepted(e: Editor): (r: View)
    ensures e.createMode <==> r.Closed?
    ensures r.Open? ==>
      && r.editor.note == e.note.(title := e.title, content := e.content)
      && r.editor.title == e.title && r.editor.content == e.content
      && !r.editor.editing && !r.editor.hasChanges
  {
    if e.createMode then Closed
    else Open(Mount(e.note.(title := e.title, content := e.content), false))
  }

  /** `handleSave` as written. The save handler it awaits catches every
      failure itself, so the editor carries on as if the save went through:
      it clears the unsaved-changes flag either way, and leaves edit mode for
      an existing note. A create also marks the dashboard busy while it is in
      flight; that re-renders the dashboard, which hands the create surface a
      new blank note literal, and the reset effect then empties the inputs.
      So a refused create leaves a blank create editor behind (the literal's
      timestamp, a clock reading, is kept as it was). */
  function SaveAsWritten(e: Editor, saved: bool): (r: Outcome)
    ensures r.call == CallOf(e)
    ensures !Saveable(e) ==> r.view == Open(e)
    ensures Saveable(e) && saved ==> r.view == Accepted(e)
    ensures Saveable(e) && !saved && !e.createMode ==>
      r.view.Open? && r.view.editor.note == e.note &&
      r.view.editor.title == e.title && r.view.editor.content == e.content &&
      !r.view.editor.editing && !r.view.editor.hasChanges
    ensures Saveable(e) && !saved && e.createMode ==>
      r.view.Open? && r.view.editor.createMode && r.view.editor.editing &&
      r.view.editor.title == "" && r.view.editor.content == "" && !r.view.editor.hasChanges &&
      r.view.editor.note.id == e.note.id
  {
    if !Saveable(e) then Outcome(Open(e), None)
    else if saved then Outcome(Accepted(e), CallOf(e))
    else if e.createMode then
      MountCreateClean(e.note.(title := "", content := ""));
      Outcome(Open(Mount(e.note.(title := "", content := ""), true)), CallOf(e))
    else Outcome(Open(e.(editing := false, hasChanges := false)), CallOf(e))
  }

  /** A refused create, as written, empties the create editor: a draft with
      text in it is gone, and the editor reports nothing unsaved. */
  lemma SaveAsWrittenBlanksCreate()
    ensures var note := Note("", "", "", "2024-01-01", false);
      var e := Editor(note, true, true, "Groceries", "milk", true);
      var after := SaveAsWritten(e, false);
      Consistent(e) && after.call == Some(SaveCall("", "Groceries", "milk")) &&
      after.view.Open? && after.view.editor.title == "" && after.view.editor.content == "" &&
      !after.view.editor.hasChanges
  {
    var note := Note("", "", "", "2024-01-01", false);
    var e := Editor(note, true, true, "Groceries", "milk", true);
    assert !IsBlank("Groceries") by { assert !IsWhitespace("Groceries"[0]); }
    assert !IsBlank("milk") by { assert !IsWhitespace("milk"[0]); }
    assert Saveable(e);
  }

  /** A failed update by Ctrl/Cmd+Enter, as written, shows the unsaved draft
      in view mode with no unsaved changes reported, and Escape then closes
      the editor without asking, losing the draft. */
  lemma SaveAsWrittenLosesDraft()
    ensures var note := Note("n1", "Groceries", "milk", "2024-01-01", false);
      var e := Editor(note, false, true, "Groceries", "milk, eggs", true);
      var after := KeyDownAsWritten(e, KeyEvent("Enter", true, true), false, false).view;
      Consistent(e) && after == SaveAsWritten(e, false).view && after.Open? && !Consistent(after.editor) &&
      after.editor.content == "milk, eggs" && !after.editor.editing &&
      KeyDownAsWritten(after.editor, KeyEvent("Escape", false, false), false, true) == Outcome(Closed, None)
  {
    var note := Note("n1", "Groceries", "milk", "2024-01-01", false);
    var e := Editor(note, false, true, "Groceries", "milk, eggs", true);
    assert !IsBlank("Groceries") by { assert !IsWhitespace("Groceries"[0]); }
    assert !IsBlank("milk, eggs") by { assert !IsWhitespace("milk, eggs"[0]); }
    assert Saveable(e);
  }

  /** The editor `handleSave` as written leaves open misreports its draft only
      after a refused save of an existing note whose draft differs from it. */
  lemma SaveAsWrittenConsistency(e: Editor, saved: bool)
    requires Consistent(e)
    ensures var v := SaveAsWritten(e, saved).view;
      v.Open? && !Consistent(v.editor) ==> !saved && !e.createMode && Saveable(e) && Dirty(e)
  {
  }

  /** `handleSave` with the failure path the editor evidently intends: a save
      the server refused changes nothing, so the draft stays in the inputs
      and is still reported as unsaved. */
  function Save(e: Editor, saved: bool): (r: Outcome)
    ensures r.call == CallOf(e)
    ensures !Saveable(e) || !saved ==> r.view == Open(e)
    ensures Saveable(e) && saved ==> r.view == Accepted(e)
  {
    if Saveable(e) && saved then Outcome(Accepted(e), CallOf(e))
    else Outcome(Open(e), CallOf(e))
  }

  /** Whatever the server answers, the editor left open after a save tells the
      truth about its draft. */
  lemma SaveKeepsConsistent(e: Editor, saved: bool)
    requires Consistent(e)
    ensures Save(e, saved).view.Open? ==> Consistent(Save(e, saved).view.editor)
  {
  }

  /** A refused save never loses the draft: it is still in the editor and the
      editor still reports it unsaved when it was. */
  lemma RefusedSaveKeepsDraft(e: Editor)
    ensures Save(e, false).view == Open(e)
  {
  }

  /** A key press: the key, whether Ctrl or Cmd was held, and whether its
      target is an input or textarea element (any on the page, not only the
      editor's own). */
  datatype KeyEvent = KeyEvent(key: string, ctrlOrMeta: bool, inTextField: bool)

  /** The document-wide key handler, given what a save does. Escape backs out
      of editing (asking first when there are unsaved changes; `confirmed` is
      the answer) or closes the editor; Ctrl/Cmd+Enter saves while the inputs
      are shown; `e` outside the inputs starts editing an existing note; any
      other key changes nothing. */
  function HandleKey(e: Editor, ev: KeyEvent, confirmed: bool, save: Outcome): (r: Outcome)
    ensures ev.key == "Escape" && !(e.editing && !e.createMode) ==> r == Outcome(Closed, None)
    ensures ev.key == "Escape" && e.editing && !e.createMode && e.hasChanges && confirmed ==>
      r == Outcome(Open(Revert(e)), None)
    ensures ev.key == "Escape" && e.editing && !e.createMode && e.hasChanges && !confirmed ==>
      r == Outcome(Open(e), None)
    ensures ev.key == "Escape" && e.editing && !e.createMode && !e.hasChanges ==>
      r == Outcome(Open(e.(editing := false)), None)
    ensures ev.key == "Enter" && ev.ctrlOrMeta && (e.editing || e.createMode) ==> r == save
    ensures ev.key == "e" && !e.editing && !e.createMode && !ev.inTextField ==> r == Outcome(Open(StartEditing(e)), None)
    ensures
      && ev.key != "Escape"
      && !(ev.key == "Enter" && ev.ctrlOrMeta && (e.editing || e.createMode))
      && !(ev.key == "e" && !e.editing && !e.createMode && !ev.inTextField)
      ==> r == Outcome(Open(e), None)
  {
    if ev.key == "Escape" then
      if e.editing && !e.createMode then
        if e.hasChanges then
          if confirmed then Outcome(Open(Revert(e)), None) else Outcome(Open(e), None)
        else Outcome(Open(e.(editing := false)), None)
      else Outcome(Closed, None)
    else if ev.ctrlOrMeta && ev.key == "Enter" && (e.editing || e.createMode) then save
    else if ev.key == "e" && !e.editing && !e.createMode && !ev.inTextField then
      Outcome(Open(StartEditing(e)), None)
    else Outcome(Open(e), None)
  }

  /** The key handler with the corrected save. */
  function KeyDown(e: Editor, ev: KeyEvent, confirmed: bool, saved: bool): (r: Outcome)
    ensures ev.key == "Enter" && ev.ctrlOrMeta && (e.editing || e.createMode) ==> r == Save(e, saved)
    ensures ev.key == "Escape" ==> r.call == None
    ensures r.call.Some? ==> r.call == CallOf(e)
    ensures r.view == Closed ==> ev.key == "Escape" || (e.createMode && r.call.Some?)
  {
    HandleKey(e, ev, confirmed, Save(e, saved))
  }

  /** The key handler as written: Ctrl/Cmd+Enter runs `handleSave` as
      written. */
  function KeyDownAsWritten(e: Editor, ev: KeyEvent, confirmed: bool, saved: bool): (r: Outcome)
    ensures ev.key == "Enter" && ev.ctrlOrMeta && (e.editing || e.createMode) ==> r == SaveAsWritten(e, saved)
    ensures ev.key == "Escape" ==> r.call == None
    ensures r.call.Some? ==> r.call == CallOf(e)
    ensures r.view == Closed ==> ev.key == "Escape" || (e.createMode && r.call.Some?)
  {
    HandleKey(e, ev, confirmed, SaveAsWritten(e, saved))
  }

  /** The two key handlers part ways only on a Ctrl/Cmd+Enter save of a
      saveable draft that the server refused. */
  lemma KeyDownVariantsAgree(e: Editor, ev: KeyEvent, confirmed: bool, saved: bool)
    ensures KeyDownAsWritten(e, ev, confirmed, saved) != KeyDown(e, ev, confirmed, saved) ==>
      ev.key == "Enter" && ev.ctrlOrMeta && (e.editing || e.createMode) && Saveable(e) && !saved
  {
  }

  /** Escape never throws away reported unsaved changes of an existing note
      without a confirmed prompt: when it closes the editor or leaves edit mode
      while the draft differs from the note, the flag said there was nothing to
      lose. */
  lemma EscapeAsksBeforeDiscarding(e: Editor, confirmed: bool, saved: bool)
    requires Consistent(e) && !e.createMode && e.editing && Dirty(e)
    ensures var r := KeyDown(e, KeyEvent("Escape", false, false), confirmed, saved);
      r.view.Open? && (r.view.editor == e || confirmed)
    ensures var r := KeyDownAsWritten(e, KeyEvent("Escape", false, false), confirmed, saved);
      r.view.Open? && (r.view.editor == e || confirmed)
  {
  }

  /** Every key press keeps the flag truthful, with the corrected save. */
  lemma KeyDownKeepsConsistent(e: Editor, ev: KeyEvent, confirmed: bool, saved: bool)
    requires Consistent(e)
    ensures KeyDown(e, ev, confirmed, saved).view.Open? ==> Consistent(KeyDown(e, ev, confirmed, saved).view.editor)
  {
  }

  /** `handleClose` (the back arrow): with unsaved changes it offers to save
      first (`confirmed` is the answer) and starts the save without waiting
      for it; either way the editor closes. */
  function CloseRequest(e: Editor, confirmed: bool): (r: Outcome)
    ensures r.view == Closed
    ensures r.call.Some? <==> e.hasChanges && confirmed && Saveable(e)
    ensures r.call.Some? ==> r.call == CallOf(e)
  {
    if e.hasChanges && confirmed then Outcome(Closed, CallOf(e)) else Outcome(Closed, None)
  }

  /** Closing with a truthful flag hands on every saveable draft the user
      agreed to keep. */
  lemma CloseSavesDirtyDraft(e: Editor)
    requires Consistent(e) && Dirty(e) && Saveable(e)
    ensures CloseRequest(e, true).call == Some(SaveCall(e.note.id, e.title, e.content))
  {
  }

  /** The user's actions on the editor, as one step. */
  datatype Event =
    | Type(title: string, content: string)
    | Edit
    | Cancel
    | Key(ev: KeyEvent, confirmed: bool)
    | SaveClick
    | Close(confirmed: bool)

  /** Whether an event can happen: the inputs, the cancel and save buttons
      exist only while editing or creating; the edit button only otherwise. */
  predicate EventOk(e: Editor, ev: Event) {
    match ev
    case Type(_, _) => e.editing || e.createMode
    case Edit => !e.editing && !e.createMode
    case Cancel => e.editing && !e.createMode
    case SaveClick => e.editing || e.createMode
    case _ => true
  }

  /** One user event on the editor, given what a save does. */
  function Dispatch(e: Editor, ev: Event, save: Outcome): (r: Outcome)
    requires EventOk(e, ev)
    ensures ev.Type? ==> r == Outcome(Open(SetDraft(e, ev.title, ev.content)), None)
    ensures ev.Edit? ==> r == Outcome(Open(StartEditing(e)), None)
    ensures ev.Cancel? ==> r == Outcome(Open(Revert(e)), None)
    ensures ev.Key? ==> r == HandleKey(e, ev.ev, ev.confirmed, save)
    ensures ev.SaveClick? ==> r == save
    ensures ev.Close? ==> r == CloseRequest(e, ev.confirmed)
  {
    match ev
    case Type(t, c) => Outcome(Open(SetDraft(e, t, c)), None)
    case Edit => Outcome(Open(StartEditing(e)), None)
    case Cancel => Outcome(Open(Revert(e)), None)
    case Key(k, confirmed) => HandleKey(e, k, confirmed, save)
    case SaveClick => save
    case Close(confirmed) => CloseRequest(e, confirmed)
  }

  /** One user event on the editor, with the corrected save. */
  function Next(e: Editor, ev: Event, saved: bool): (r: Outcome)
    requires EventOk(e, ev)
    ensures r.call.Some? ==> r.call == CallOf(e)
    ensures ev.Type? ==> r.view.Open? && r.view.editor.title == ev.title && r.view.editor.content == ev.content
    ensures ev.SaveClick? ==> r == Save(e, saved)
    ensures ev.Key? ==> r == KeyDown(e, ev.ev, ev.confirmed, saved)
  {
    Dispatch(e, ev, Save(e, saved))
  }

  /** One user event on the editor as written: the save button and
      Ctrl/Cmd+Enter run `handleSave` as written. */
  function NextAsWritten(e: Editor, ev: Event, saved: bool): (r: Outcome)
    requires EventOk(e, ev)
    ensures r.call.Some? ==> r.call == CallOf(e)
    ensures ev.Type? ==> r.view.Open? && r.view.editor.title == ev.title && r.view.editor.content == ev.content
    ensures ev.SaveClick? ==> r == SaveAsWritten(e, saved)
    ensures ev.Key? ==> r == KeyDownAsWritten(e, ev.ev, ev.confirmed, saved)
  {
    Dispatch(e, ev, SaveAsWritten(e, saved))
  }

  /** The unsaved-changes flag stays truthful through every event, from the
      moment the editor is mounted, with the corrected save. */
  lemma NextKeepsConsistent(e: Editor, ev: Event, saved: bool)
    requires Consistent(e) && EventOk(e, ev)
    ensures Next(e, ev, saved).view.Open? ==> Consistent(Next(e, ev, saved).view.editor)
  {
    match ev
    case Key(k, confirmed) => KeyDownKeepsConsistent(e, k, confirmed, saved);
    case SaveClick => SaveKeepsConsistent(e, saved);
    case _ =>
  }

  /** As written, the flag goes wrong in one way only: a refused save of an
      existing note whose draft differs from it leaves the draft on screen
      with the flag cleared. */
  lemma NextAsWrittenConsistency(e: Editor, ev: Event, saved: bool)
    requires Consistent(e) && EventOk(e, ev)
    ensures var v := NextAsWritten(e, ev, saved).view;
      v.Open? && !Consistent(v.editor) ==> !saved && !e.createMode && Saveable(e) && Dirty(e)
  {
    match ev
    case Key(k, confirmed) =>
      if k.key == "Enter" && k.ctrlOrMeta && (e.editing || e.createMode) {
        SaveAsWrittenConsistency(e, saved);
      } else {
        KeyDownVariantsAgree(e, k, confirmed, saved);
        KeyDownKeepsConsistent(e, k, confirmed, saved);
      }
    case SaveClick => SaveAsWrittenConsistency(e, saved);
    case _ => NextKeepsConsistent(e, ev, saved);
  }
}

=== FILE: jstext.dfy ===
/**
  The few JavaScript string primitives the two pages rely on, stated over
  Dafny strings. A Dafny `char` is a Unicode scalar value, whereas a
  JavaScript string is a sequence of UTF-16 code units; `JsLength` accounts for
  the difference wherever the original program reads `.length`.
 */
module JsText {

  /** `s.length` in JavaScript: characters outside the Basic Multilingual Plane
      take two UTF-16 code units. */
  function JsLength(s: string): (n: nat)
    ensures n >= |s|
    ensures n == 0 <==> s == ""
  {
    if s == "" then 0
    else (if s[0] as int > 0xFFFF then 2 else 1) + JsLength(s[1..])
  }

  /** Every character of `s` fits in one UTF-16 code unit. */
  predicate InBmp(s: string) {
    forall i :: 0 <= i < |s| ==> s[i] as int <= 0xFFFF
  }

  lemma {:induction false} JsLengthOfBmp(s: string)
    requires InBmp(s)
    ensures JsLength(s) == |s|
  {
    if s != "" {
      assert InBmp(s[1..]) by {
        forall i | 0 <= i < |s[1..]| ensures s[1..][i] as int <= 0xFFFF {
          assert s[1..][i] == s[i + 1];
        }
      }
      JsLengthOfBmp(s[1..]);
    }
  }

  /** The characters `String.prototype.trim` removes: WhiteSpace and
      LineTerminator of ECMAScript (section 12.2 and 12.3 of ECMA-262),
      i.e. TAB, VT, FF, SP, NBSP, ZWNBSP, the Zs category, LF, CR, LS and PS. */
  predicate IsWhitespace(c: char) {
    c == '\t' || c == '\n' || c == '\U{B}' || c == '\U{C}' || c == '\r' ||
    c == ' ' || c == '\U{A0}' || c == '\U{1680}' ||
    ('\U{2000}' <= c <= '\U{200A}') ||
    c == '\U{2028}' || c == '\U{2029}' || c == '\U{202F}' || c == '\U{205F}' ||
    c == '\U{3000}' || c == '\U{FEFF}'
  }

  /** A string with nothing but whitespace in it, the empty string included. */
  predicate IsBlank(s: string) {
    forall i :: 0 <= i < |s| ==> IsWhitespace(s[i])
  }

  /** Drops the leading whitespace: the result is the suffix of `s` that starts
      at the first non-whitespace character. */
  function TrimStart(s: string): (r: string)
    ensures |r| <= |s| && r == s[|s| - |r|..]
    ensures IsBlank(s[..|s| - |r|])
    ensures r == "" || !IsWhitespace(r[0])
  {
    if s != "" && IsWhitespace(s[0]) then
      var r := TrimStart(s[1..]);
      assert s[..|s| - |r|] == [s[0]] + s[1..][..|s[1..]| - |r|];
      r
    else s
  }

  /** Drops the trailing whitespace: the result is the prefix of `s` that ends
      at the last non-whitespace character. */
  function TrimEnd(s: string): (r: string)
    ensures |r| <= |s| && r == s[..|r|]
    ensures IsBlank(s[|r|..])
    ensures r == "" || !IsWhitespace(r[|r| - 1])
  {
    if s != "" && IsWhitespace(s[|s| - 1]) then
      var r := TrimEnd(s[..|s| - 1]);
      assert s[|r|..] == s[..|s| - 1][|r|..] + [s[|s| - 1]];
      r
    else s
  }

  /** `s.trim()`. */
  function Trim(s: string): string {
    TrimEnd(TrimStart(s))
  }

  /** `!s.trim()` holds exactly for blank strings. */
  lemma TrimEmptyIffBlank(s: string)
    ensures Trim(s) == "" <==> IsBlank(s)
  {
    var a := TrimStart(s);
    if Trim(s) == "" {
      assert IsBlank(a[0..]);
      assert a == "";
      assert s[..|s| - |a|] == s;
    }
  }

  /** A character `\d` matches: an ASCII decimal digit. */
  predicate IsAsciiDigit(c: char) {
    '0' <= c <= '9'
  }

  /** `/^\d+$/.test(s)` without the non-emptiness: every character is a digit. */
  predicate AllDigits(s: string) {
    forall i :: 0 <= i < |s| ==> IsAsciiDigit(s[i])
  }

  lemma AllDigitsInBmp(s: string)
    requires AllDigits(s)
    ensures InBmp(s)
  {
  }

  predicate IsHexDigit(c: char) {
    IsAsciiDigit(c) || ('a' <= c <= 'f') || ('A' <= c <= 'F')
  }

  /** `isNaN(parseInt(s))` with no radix (section 19.2.5 of ECMA-262): after the
      leading whitespace and one optional sign, a `0x`/`0X` prefix switches to
      hexadecimal; the result is NaN when no digit of the radix follows. */
  predicate ParseIntIsNaN(s: string) {
    var t := TrimStart(s);
    var u := if t != "" && (t[0] == '+' || t[0] == '-') then t[1..] else t;
    if |u| >= 2 && u[0] == '0' && (u[1] == 'x' || u[1] == 'X') then
      !(|u| > 2 && IsHexDigit(u[2]))
    else
      !(u != "" && IsAsciiDigit(u[0]))
  }

  /** On the at-most-one-character value of a `maxLength={1}` input, `parseInt`
      succeeds exactly on a single digit (`""` is NaN). */
  lemma ParseIntOfOneChar(v: string)
    requires |v| <= 1
    ensures !ParseIntIsNaN(v) <==> |v| == 1 && IsAsciiDigit(v[0])
  {
    if |v| == 1 && !IsWhitespace(v[0]) {
      assert TrimStart(v) == v;
    }
  }

  /** ASCII-only `toLowerCase` of one character. */
  function AsciiLower(c: char): char {
    if 'A' <= c <= 'Z' then (c as int + 32) as char else c
  }

  /** ASCII-only `toUpperCase` of one character. */
  function AsciiUpper(c: char): char {
    if 'a' <= c <= 'z' then (c as int - 32) as char else c
  }

  /** `s.toLowerCase()`, restricted to ASCII letters. */
  function Lower(s: string): (r: string)
    ensures |r| == |s|
    ensures forall i :: 0 <= i < |s| ==> r[i] == AsciiLower(s[i])
  {
    seq(|s|, i requires 0 <= i < |s| => AsciiLower(s[i]))
  }

  /** `p` occurs at the very start of `s`. */
  predicate IsPrefix(p: string, s: string) {
    |p| <= |s| && s[..|p|] == p
  }

  /** `h.includes(n)`: `n` occurs somewhere in `h`. */
  predicate Contains(h: string, n: string)
    decreases |h|
  {
    IsPrefix(n, h) || (h != "" && Contains(h[1..], n))
  }

  /** `n` occurs in `h` starting at position `i`. */
  predicate OccursAt(h: string, n: string, i: int) {
    0 <= i <= |h| - |n| && h[i..i + |n|] == n
  }

  /** `Contains` agrees with the positional reading of `includes`: some window
      of `h` of length `|n|` equals `n`. */
  lemma {:induction false} ContainsAt(h: string, n: string)
    ensures Contains(h, n) <==> exists i :: OccursAt(h, n, i)
    decreases |h|
  {
    if IsPrefix(n, h) {
      assert OccursAt(h, n, 0);
    } else if h != "" {
      ContainsAt(h[1..], n);
      if Contains(h[1..], n) {
        var i :| OccursAt(h[1..], n, i);
        assert h[1..][i..i + |n|] == h[i + 1..i + 1 + |n|];
        assert OccursAt(h, n, i + 1);
      }
      if exists i :: OccursAt(h, n, i) {
        var i :| OccursAt(h, n, i);
        assert i != 0;
        assert h[1..][i - 1..i - 1 + |n|] == h[i..i + |n|];
        assert OccursAt(h[1..], n, i - 1);
      }
    }
  }

  /** Every string includes the empty string. */
  lemma ContainsEmpty(h: string)
    ensures Contains(h, "")
  {
    assert IsPrefix("", h);
  }
}

=== FILE: note_form.dfy ===
/** `NoteForm`, the title/content form of the create and edit modals, with its
    per-field validation. */
module NoteForm {
  import opened Wrappers
  import opened JsText
  import opened Notes

  /** Which field an event concerns. */
  datatype FieldName = TitleField | ContentField

  /** The field's name as the form spells it when validating. */
  function NameOf(f: FieldName): string {
    match f
    case TitleField => "title"
    case ContentField => "content"
  }

  /** The local draft, the error line under each field, and whether each field
      has been visited. */
  datatype Form = Form(title: string, content: string, titleError: string, contentError: string,
                       titleTouched: bool, contentTouched: bool)

  /** A submitted draft. */
  datatype Draft = Draft(title: string, content: string)

  /** The form as it (re)mounts for a note, or blank for a new one. */
  function Mount(note: Option<Note>): (f: Form)
    ensures note.Some? ==> f.title == note.value.title && f.content == note.value.content
    ensures note.None? ==> f.title == "" && f.content == ""
    ensures f.titleError == "" && f.contentError == "" && !f.titleTouched && !f.contentTouched
  {
    match note
    case Some(n) => Form(n.title, n.content, "", "", false, false)
    case None => Form("", "", "", "", false, false)
  }

  /** `name.charAt(0).toUpperCase() + name.slice(1)`. */
  function Capitalize(name: string): string {
    if name == "" then "" else [AsciiUpper(name[0])] + name[1..]
  }

  /** `validateField(name, value)`: a value that trims to nothing is reported
      as "<Name> is required"; anything else passes. */
  function ValidateField(name: string, value: string): (r: string)
    ensures r == "" <==> Trim(value) != ""
    ensures r != "" ==> r == Capitalize(name) + " is required"
  {
    TrimEmptyIffBlank(value);
    if IsBlank(value) then Capitalize(name) + " is required" else ""
  }

  /** The two messages the form can show, and when it shows them: exactly
      for a value of nothing but whitespace. */
  lemma RequiredMessages(value: string)
    ensures IsBlank(value) ==> ValidateField("title", value) == "Title is required"
    ensures IsBlank(value) ==> ValidateField("content", value) == "Content is required"
    ensures !IsBlank(value) ==> ValidateField("title", value) == "" && ValidateField("content", value) == ""
  {
    if IsBlank(value) {
      BlankMessage("title", value);
      BlankMessage("content", value);
      MessageTexts();
    } else {
      TrimEmptyIffBlank(value);
    }
  }

  /** The two field names, capitalised into their messages. */
  lemma MessageTexts()
    ensures Capitalize("title") + " is required" == "Title is required"
    ensures Capitalize("content") + " is required" == "Content is required"
  {
    assert Capitalize("title") == "Title";
    assert Capitalize("content") == "Content";
  }

  /** A blank value gets the field's message. */
  lemma BlankMessage(name: string, value: string)
    requires IsBlank(value)
    ensures ValidateField(name, value) == Capitalize(name) + " is required"
  {
    TrimEmptyIffBlank(value);
  }

  /** Typing into a field: once the field has been visited, its error line is
      re-validated on every keystroke. */
  function Change(f: Form, field: FieldName, value: string): (r: Form)
    ensures field == TitleField ==> r.title == value && r.content == f.content
    ensures field == ContentField ==> r.content == value && r.title == f.title
    ensures r.titleTouched == f.titleTouched && r.contentTouched == f.contentTouched
    ensures field == TitleField && f.titleTouched ==> r.titleError == ValidateField("title", value)
    ensures field == TitleField && !f.titleTouched ==> r.titleError == f.titleError
    ensures field == ContentField && f.contentTouched ==> r.contentError == ValidateField("content", value)
    ensures field == ContentField && !f.contentTouched ==> r.contentError == f.contentError
    ensures field == TitleField ==> r.contentError == f.contentError
    ensures field == ContentField ==> r.titleError == f.titleError
  {
    match field
    case TitleField =>
      f.(title := value, titleError := if f.titleTouched then ValidateField("title", value) else f.titleError)
    case ContentField =>
      f.(content := value, contentError := if f.contentTouched then ValidateField("content", value) else f.contentError)
  }

  /** `handleBlur`: leaving a field marks it visited and validates it. */
  function Blur(f: Form, field: FieldName): (r: Form)
    ensures r.title == f.title && r.content == f.content
    ensures field == TitleField ==> r.titleTouched && r.titleError == ValidateField("title", f.title)
    ensures field == ContentField ==> r.contentTouched && r.contentError == ValidateField("content", f.content)
  {
    match field
    case TitleField => f.(titleTouched := true, titleError := ValidateField(NameOf(field), f.title))
    case ContentField => f.(contentTouched := true, contentError := ValidateField(NameOf(field), f.content))
  }

  /** The outcome of submitting: the form afterwards, and the draft handed to
      `onSubmit`, if it was. */
  datatype Submission = Submission(form: Form, submitted: Option<Draft>)

  /** `handleSubmit`: validate both fields, mark both visited, and hand the
      draft on only when both are non-blank. */
  function Submit(f: Form): (r: Submission)
    ensures r.submitted.Some? <==> !IsBlank(f.title) && !IsBlank(f.content)
    ensures r.submitted.Some? ==> r.submitted.value == Draft(f.title, f.content)
    ensures r.form.titleTouched && r.form.contentTouched
    ensures IsBlank(f.title) ==> r.form.titleError == "Title is required"
    ensures IsBlank(f.content) ==> r.form.contentError == "Content is required"
    ensures !IsBlank(f.title) ==> r.form.titleError == ""
    ensures !IsBlank(f.content) ==> r.form.contentError == ""
    ensures r.form.title == f.title && r.form.content == f.content
  {
    RequiredMessages(f.title);
    RequiredMessages(f.content);
    var te := ValidateField("title", f.title);
    var ce := ValidateField("content", f.content);
    var g := f.(titleError := te, contentError := ce, titleTouched := true, contentTouched := true);
    if te == "" && ce == "" then Submission(g, Some(Draft(f.title, f.content)))
    else Submission(g, None)
  }

  /** The error line under every visited field is that field's current
      verdict: what the red text shows is never stale. */
  predicate ErrorsCurrent(f: Form) {
    (f.titleTouched ==> f.titleError == ValidateField("title", f.title)) &&
    (f.contentTouched ==> f.contentError == ValidateField("content", f.content))
  }

  /** Mounting establishes it, and typing, leaving a field and submitting keep
      it. */
  lemma ErrorsStayCurrent(f: Form, note: Option<Note>, field: FieldName, value: string)
    ensures ErrorsCurrent(Mount(note))
    ensures ErrorsCurrent(f) ==> ErrorsCurrent(Change(f, field, value))
    ensures ErrorsCurrent(f) ==> ErrorsCurrent(Blur(f, field))
    ensures ErrorsCurrent(Submit(f).form)
  {
  }
}

=== FILE: notes.dfy ===
/** The dashboard's note records and the pure sequence operations its cache
    is driven by: the load filter, the in-place update, the soft-delete removal
    and the search view. */
module Notes {
  import opened Gateway
  import opened JsText
  import opened Seqs

  /** A note as the server returns it. */
  datatype Note = Note(id: string, title: string, content: string, createdAt: string, isDeleted: bool)

  /** Not soft-deleted. */
  predicate IsLive(n: Note) {
    !n.isDeleted
  }

  /** No soft-deleted note in the list. */
  predicate AllLive(notes: seq<Note>) {
    forall i :: 0 <= i < |notes| ==> IsLive(notes[i])
  }

  /** Some note in the list carries this id. */
  predicate HasId(notes: seq<Note>, id: string) {
    exists i :: 0 <= i < |notes| && notes[i].id == id
  }

  /** The initial fetch: the server's list without its soft-deleted notes; a
      failed fetch leaves the cache at its initial empty value. */
  function Load(reply: Reply<seq<Note>>): (r: seq<Note>)
    ensures reply.Err? ==> r == []
    ensures reply.Ok? ==> IsSubseq(r, reply.value)
    ensures reply.Ok? ==> forall i :: 0 <= i < |r| ==> IsLive(r[i]) && r[i] in reply.value
    ensures reply.Ok? ==> forall i :: 0 <= i < |reply.value| && IsLive(reply.value[i]) ==> reply.value[i] in r
    ensures reply.Ok? ==> forall n :: multiset(r)[n] == if IsLive(n) then multiset(reply.value)[n] else 0
  {
    match reply
    case Ok(list) => FilterIsSubseq(list, IsLive); FilterMembers(list, IsLive); Filter(list, IsLive)
    case Err(_) => []
  }

  /** A list of one live and one soft-deleted note loads as the live one alone. */
  lemma LoadExample(a: Note, b: Note)
    requires !a.isDeleted && b.isDeleted
    ensures Load(Ok([a, b])) == [a]
  {
    FilterSplit([a, b], IsLive);
    assert [a, b][1..] == [b];
    FilterSplit([b], IsLive);
    assert [b][1..] == [];
  }

  /** The update branch of `handleSaveNote` on the cache: every note with the
      id gets the new title and content; nothing else about any note changes. */
  function Rename(notes: seq<Note>, id: string, title: string, content: string): (r: seq<Note>)
    ensures |r| == |notes|
    ensures forall i :: 0 <= i < |r| ==>
      r[i].id == notes[i].id && r[i].createdAt == notes[i].createdAt && r[i].isDeleted == notes[i].isDeleted
    ensures forall i :: 0 <= i < |r| && notes[i].id == id ==> r[i].title == title && r[i].content == content
    ensures forall i :: 0 <= i < |r| && notes[i].id != id ==> r[i] == notes[i]
  {
    seq(|notes|, i requires 0 <= i < |notes| =>
      if notes[i].id == id then notes[i].(title := title, content := content) else notes[i])
  }

  /** Saving the same update twice is saving it once. */
  lemma RenameIdempotent(notes: seq<Note>, id: string, title: string, content: string)
    ensures Rename(Rename(notes, id, title, content), id, title, content) == Rename(notes, id, title, content)
  {
  }

  /** An update for an id the cache does not hold changes nothing. */
  lemma RenameAbsent(notes: seq<Note>, id: string, title: string, content: string)
    requires !HasId(notes, id)
    ensures Rename(notes, id, title, content) == notes
  {
  }

  /** The test the soft-delete filter keeps: `n._id !== id`. */
  function Other(id: string): Note -> bool {
    (n: Note) => n.id != id
  }

  /** The soft-delete branch of `handleDeleteNote` on the cache: every note with
      the id goes; the rest keep their order. */
  function RemoveId(notes: seq<Note>, id: string): (r: seq<Note>)
    ensures IsSubseq(r, notes)
    ensures !HasId(r, id)
    ensures forall i :: 0 <= i < |notes| && notes[i].id != id ==> notes[i] in r
    ensures forall n :: multiset(r)[n] == if n.id != id then multiset(notes)[n] else 0
  {
    FilterIsSubseq(notes, Other(id));
    FilterMembers(notes, Other(id));
    Filter(notes, Other(id))
  }

  /** Deleting the note just created restores the cache it was prepended to. */
  lemma RemoveUndoesPrepend(n: Note, notes: seq<Note>)
    requires !HasId(notes, n.id)
    ensures RemoveId([n] + notes, n.id) == notes
  {
    FilterSplit([n] + notes, Other(n.id));
    assert ([n] + notes)[1..] == notes;
    FilterAllPass(notes, Other(n.id));
  }

  /** Deleting twice is deleting once. */
  lemma RemoveIdempotent(notes: seq<Note>, id: string)
    ensures RemoveId(RemoveId(notes, id), id) == RemoveId(notes, id)
  {
    FilterIdempotent(notes, Other(id));
  }

  /** A note is shown for query `q` when the lowercased query occurs in its
      lowercased title or its lowercased content. */
  predicate Matches(n: Note, q: string) {
    Contains(Lower(n.title), Lower(q)) || Contains(Lower(n.content), Lower(q))
  }

  /** The test of the search view. */
  function MatchesQuery(q: string): Note -> bool {
    (n: Note) => Matches(n, q)
  }

  /** `filteredNotes`: the cache narrowed to the notes matching the query, in
      cache order. */
  function Search(notes: seq<Note>, q: string): (r: seq<Note>)
    ensures IsSubseq(r, notes)
    ensures forall i :: 0 <= i < |r| ==> Matches(r[i], q) && r[i] in notes
    ensures forall i :: 0 <= i < |notes| && Matches(notes[i], q) ==> notes[i] in r
    ensures forall n :: multiset(r)[n] == if Matches(n, q) then multiset(notes)[n] else 0
  {
    FilterIsSubseq(notes, MatchesQuery(q));
    FilterMembers(notes, MatchesQuery(q));
    Filter(notes, MatchesQuery(q))
  }

  /** An empty query shows every note. */
  lemma SearchEmptyQuery(notes: seq<Note>)
    ensures Search(notes, "") == notes
  {
    forall i | 0 <= i < |notes| ensures MatchesQuery("")(notes[i]) {
      ContainsEmpty(Lower(notes[i].title));
    }
    FilterAllPass(notes, MatchesQuery(""));
  }

  /** Searching and deleting commute: the view after a delete is the old view
      without the deleted note. */
  lemma SearchAfterRemove(notes: seq<Note>, id: string, q: string)
    ensures Search(RemoveId(notes, id), q) == RemoveId(Search(notes, q), id)
  {
    FilterCommutes(notes, Other(id), MatchesQuery(q));
  }

  /** A freshly created note heads the view exactly when it matches the query;
      the rest of the view is the old view. */
  lemma SearchAfterPrepend(n: Note, notes: seq<Note>, q: string)
    ensures Search([n] + notes, q) == (if Matches(n, q) then [n] else []) + Search(notes, q)
  {
    FilterSplit([n] + notes, MatchesQuery(q));
    assert ([n] + notes)[1..] == notes;
  }

  /** The cache never shows a soft-deleted note: loading establishes it, and
      updates, removals and prepending a live note keep it. */
  lemma LiveCacheKept(notes: seq<Note>, n: Note, id: string, title: string, content: string,
                      reply: Reply<seq<Note>>)
    requires AllLive(notes) && IsLive(n)
    ensures AllLive(Load(reply))
    ensures AllLive(Rename(notes, id, title, content))
    ensures AllLive(RemoveId(notes, id))
    ensures AllLive([n] + notes)
  {
    RemoveKeepsLive(notes, id);
  }

  /** Removing notes from a cache of live notes leaves only live notes. */
  lemma RemoveKeepsLive(notes: seq<Note>, id: string)
    requires AllLive(notes)
    ensures AllLive(RemoveId(notes, id))
  {
    var r := RemoveId(notes, id);
    forall i | 0 <= i < |r| ensures IsLive(r[i]) {
      assert r[i] in multiset(r);
      assert r[i] in notes;
      var j :| 0 <= j < |notes| && notes[j] == r[i];
    }
  }
}

=== FILE: otp.dfy ===
/** The six-box one-time-code editor of the verification step: typing
    (`handleChange`), backspace (`handleKeyDown`) and paste (`handlePaste`).
    Focus is the box the handlers last moved the caret to; `None` until they
    move it for the first time. */
module Otp {
  import opened Wrappers
  import opened JsText

  /** Number of boxes. */
  const Width: nat := 6

  /** The six boxes and the focused one. */
  datatype OtpBox = OtpBox(slots: seq<string>, focus: Option<nat>)

  /** Six empty boxes, nothing focused. */
  const Initial: OtpBox := OtpBox(["", "", "", "", "", ""], None)

  /** A box is empty or holds a single digit. */
  predicate SlotOk(v: string) {
    v == "" || (|v| == 1 && IsAsciiDigit(v[0]))
  }

  /** Six well-formed boxes and, when something is focused, a real box. */
  predicate WellFormed(b: OtpBox) {
    |b.slots| == Width &&
    (forall i :: 0 <= i < |b.slots| ==> SlotOk(b.slots[i])) &&
    (b.focus.Some? ==> b.focus.value < Width)
  }

  lemma InitialWellFormed()
    ensures WellFormed(Initial)
  {
  }

  /** `handleChange(element, index)` with `element.value == value`: anything
      `parseInt` rejects is ignored; otherwise the value goes into box `index`
      and the caret moves on, unless this was the last box. */
  function Type(b: OtpBox, index: nat, value: string): (r: OtpBox)
    requires |b.slots| == Width && index < Width
    ensures |r.slots| == Width
    ensures ParseIntIsNaN(value) ==> r == b
    ensures !ParseIntIsNaN(value) ==>
      r.slots[index] == value &&
      (forall j :: 0 <= j < Width && j != index ==> r.slots[j] == b.slots[j]) &&
      r.focus == (if index < Width - 1 then Some(index + 1) else b.focus)
  {
    if ParseIntIsNaN(value) then b
    else
      var focus := if value != "" && index < Width - 1 then Some(index + 1) else b.focus;
      OtpBox(b.slots[index := value], focus)
  }

  /** What the boxes accept, stated on the one-character values an input with
      `maxLength={1}` can hold: only a digit changes anything, and it lands in
      box `index` alone. */
  lemma TypeOneChar(b: OtpBox, index: nat, value: string)
    requires WellFormed(b) && index < Width && |value| <= 1
    ensures !(|value| == 1 && IsAsciiDigit(value[0])) ==> Type(b, index, value) == b
    ensures |value| == 1 && IsAsciiDigit(value[0]) ==>
      Type(b, index, value).slots == b.slots[index := value]
    ensures WellFormed(Type(b, index, value))
  {
    ParseIntOfOneChar(value);
  }

  /** `handleKeyDown(e, index)`: on Backspace, clear box `index` when it holds
      something; otherwise clear the box before it and move there. Nothing
      happens on the first box when it is empty, or for any other key. */
  function Backspace(b: OtpBox, key: string, index: nat): (r: OtpBox)
    requires |b.slots| == Width && index < Width
    ensures |r.slots| == Width
    ensures key != "Backspace" ==> r == b
    ensures key == "Backspace" && b.slots[index] != "" ==>
      r.slots == b.slots[index := ""] && r.focus == b.focus
    ensures key == "Backspace" && b.slots[index] == "" && index > 0 ==>
      r.slots == b.slots[index - 1 := ""] && r.focus == Some(index - 1)
    ensures key == "Backspace" && b.slots[index] == "" && index == 0 ==> r == b
  {
    if key != "Backspace" then b
    else if b.slots[index] == "" && index > 0 then
      OtpBox(b.slots[index - 1 := ""], Some(index - 1))
    else if b.slots[index] != "" then
      OtpBox(b.slots[index := ""], b.focus)
    else b
  }

  lemma BackspaceWellFormed(b: OtpBox, key: string, index: nat)
    requires WellFormed(b) && index < Width
    ensures WellFormed(Backspace(b, key, index))
  {
  }

  /** Backspace undoes a keystroke into an empty box: the boxes are as before. */
  lemma BackspaceUndoesType(b: OtpBox, index: nat, value: string)
    requires WellFormed(b) && index < Width && b.slots[index] == ""
    requires |value| == 1 && IsAsciiDigit(value[0])
    ensures Backspace(Type(b, index, value), "Backspace", index).slots == b.slots
  {
    ParseIntOfOneChar(value);
  }

  /** `/^\d+$/.test(d)`: a non-empty run of digits. */
  predicate IsDigitRun(d: string) {
    d != "" && AllDigits(d)
  }

  /** How many pasted digits land in boxes: `pastedData.slice(0, 6).length`. */
  function PastedCount(d: string): nat {
    if |d| < Width then |d| else Width
  }

  /** `handlePaste`: the trimmed clipboard text is used only when it is all
      digits; its first six digits overwrite the boxes from the left, and the
      caret moves to the box after the last one written, if there is one. */
  function Paste(b: OtpBox, text: string): (r: OtpBox)
    requires |b.slots| == Width
    ensures |r.slots| == Width
    ensures !IsDigitRun(Trim(text)) ==> r == b
    ensures IsDigitRun(Trim(text)) ==>
      var d := Trim(text);
      var k := PastedCount(d);
      (forall i :: 0 <= i < k ==> r.slots[i] == [d[i]]) &&
      (forall i :: k <= i < Width ==> r.slots[i] == b.slots[i]) &&
      r.focus == (if k < Width then Some(k) else b.focus)
  {
    var d := Trim(text);
    if !IsDigitRun(d) then b
    else
      var k := PastedCount(d);
      var slots := seq(Width, i requires 0 <= i < Width => if i < k then [d[i]] else b.slots[i]);
      OtpBox(slots, if k < Width then Some(k) else b.focus)
  }

  lemma PasteWellFormed(b: OtpBox, text: string)
    requires WellFormed(b)
    ensures WellFormed(Paste(b, text))
  {
  }

  /** `otp.join("")`. */
  function Join(slots: seq<string>): string {
    if slots == [] then "" else slots[0] + Join(slots[1..])
  }

  /** Number of boxes holding something. */
  function Filled(slots: seq<string>): nat {
    if slots == [] then 0 else (if slots[0] != "" then 1 else 0) + Filled(slots[1..])
  }

  /** Joining well-formed boxes gives one digit per filled box. */
  lemma {:induction false} JoinOfSlots(slots: seq<string>)
    requires forall i :: 0 <= i < |slots| ==> SlotOk(slots[i])
    ensures AllDigits(Join(slots))
    ensures |Join(slots)| == Filled(slots) <= |slots|
    ensures Filled(slots) == |slots| <==> forall i :: 0 <= i < |slots| ==> slots[i] != ""
  {
    if slots != [] {
      assert forall i :: 0 <= i < |slots[1..]| ==> slots[1..][i] == slots[i + 1];
      JoinOfSlots(slots[1..]);
      var j := Join(slots[1..]);
      assert Join(slots) == slots[0] + j;
      assert forall i :: 0 <= i < |Join(slots)| ==> (if i < |slots[0]| then Join(slots)[i] == slots[0][i] else Join(slots)[i] == j[i - |slots[0]|]);
      if Filled(slots) == |slots| {
        forall i | 0 <= i < |slots| ensures slots[i] != "" {
          if i > 0 {
            assert slots[i] == slots[1..][i - 1];
          }
        }
      }
    }
  }

  /** The verify guard `otp.join("").length === 6` holds exactly when every box
      is filled. */
  lemma JoinedLengthSixIffFull(b: OtpBox)
    requires WellFormed(b)
    ensures JsLength(Join(b.slots)) == Width <==> forall i :: 0 <= i < Width ==> b.slots[i] != ""
  {
    JoinOfSlots(b.slots);
    AllDigitsInBmp(Join(b.slots));
    JsLengthOfBmp(Join(b.slots));
  }

  /** Joining one-character boxes spells out the characters they were cut from. */
  lemma {:induction false} JoinOfSingles(slots: seq<string>, t: string)
    requires |slots| <= |t|
    requires forall i :: 0 <= i < |slots| ==> slots[i] == [t[i]]
    ensures Join(slots) == t[..|slots|]
  {
    if slots != [] {
      assert forall i :: 0 <= i < |slots[1..]| ==> slots[1..][i] == [t[1..][i]];
      JoinOfSingles(slots[1..], t[1..]);
      assert t[..|slots|] == [t[0]] + t[1..][..|slots| - 1];
    }
  }

  /** Pasting six or more digits fills the code with exactly the first six of
      them: what the verify request then carries. */
  lemma PasteThenJoin(b: OtpBox, text: string)
    requires |b.slots| == Width
    requires IsDigitRun(Trim(text)) && |Trim(text)| >= Width
    ensures Join(Paste(b, text).slots) == Trim(text)[..Width]
  {
    JoinOfSingles(Paste(b, text).slots, Trim(text));
  }

  /** Pasting `123456` into empty boxes fills them in order and leaves the
      caret where it was, there being no box after the sixth. */
  lemma PasteExample()
    ensures Paste(Initial, "123456") == OtpBox(["1", "2", "3", "4", "5", "6"], None)
  {
    assert TrimStart("123456") == "123456";
    assert TrimEnd("123456") == "123456";
  }

  /** Backspace on box 3 holding `7` clears it in place; a second backspace
      on the now-empty box clears box 2 and moves there. */
  lemma BackspaceExample(b: OtpBox)
    requires WellFormed(b) && b.slots[3] == "7"
    ensures var once := Backspace(b, "Backspace", 3);
      once.slots[3] == "" && once.focus == b.focus &&
      var twice := Backspace(once, "Backspace", 3);
      twice.slots[2] == "" && twice.focus == Some(2)
  {
  }
}

=== FILE: password.dfy ===
/** The signup page's password-strength meter (`checkPasswordStrength`). */
module Password {
  import opened JsText

  /** The four tiers the meter reports. */
  datatype Strength = Empty | Weak | Medium | Strong

  /** The four character classes the meter looks for. */
  datatype CharClass = Upper | Lower | Digit | Other

  /** The class a single character falls in: `[A-Z]`, `[a-z]`, `[0-9]`, or
      anything else (`[^A-Za-z0-9]`). */
  function ClassOf(c: char): CharClass {
    if 'A' <= c <= 'Z' then Upper
    else if 'a' <= c <= 'z' then Lower
    else if '0' <= c <= '9' then Digit
    else Other
  }

  /** Some character of `p` is of class `k`. */
  predicate HasClass(p: string, k: CharClass) {
    exists i :: 0 <= i < |p| && ClassOf(p[i]) == k
  }

  /** The classes present in `p`, as a set: the independent reading of the
      meter's score. */
  ghost function PresentClasses(p: string): set<CharClass> {
    set k | k in {Upper, Lower, Digit, Other} && HasClass(p, k)
  }

  /** The four regular-expression tests of the meter, one per class. */
  predicate MatchesUpper(p: string) {
    exists i :: 0 <= i < |p| && 'A' <= p[i] <= 'Z'
  }

  predicate MatchesLower(p: string) {
    exists i :: 0 <= i < |p| && 'a' <= p[i] <= 'z'
  }

  predicate MatchesDigit(p: string) {
    exists i :: 0 <= i < |p| && '0' <= p[i] <= '9'
  }

  predicate MatchesSpecial(p: string) {
    exists i :: 0 <= i < |p| && !('A' <= p[i] <= 'Z') && !('a' <= p[i] <= 'z') && !('0' <= p[i] <= '9')
  }

  /** The meter's counter: one point per regular expression that matches. */
  function Score(p: string): nat {
    (if MatchesUpper(p) then 1 else 0) + (if MatchesLower(p) then 1 else 0) +
    (if MatchesDigit(p) then 1 else 0) + (if MatchesSpecial(p) then 1 else 0)
  }

  /** Each regular expression matches exactly when its class is present. */
  lemma MatchesIffHasClass(p: string)
    ensures MatchesUpper(p) <==> HasClass(p, Upper)
    ensures MatchesLower(p) <==> HasClass(p, Lower)
    ensures MatchesDigit(p) <==> HasClass(p, Digit)
    ensures MatchesSpecial(p) <==> HasClass(p, Other)
  {
    if MatchesUpper(p) {
      var i :| 0 <= i < |p| && 'A' <= p[i] <= 'Z';
      assert ClassOf(p[i]) == Upper;
    }
    if MatchesLower(p) {
      var i :| 0 <= i < |p| && 'a' <= p[i] <= 'z';
      assert ClassOf(p[i]) == Lower;
    }
    if MatchesDigit(p) {
      var i :| 0 <= i < |p| && '0' <= p[i] <= '9';
      assert ClassOf(p[i]) == Digit;
    }
    if MatchesSpecial(p) {
      var i :| 0 <= i < |p| && !('A' <= p[i] <= 'Z') && !('a' <= p[i] <= 'z') && !('0' <= p[i] <= '9');
      assert ClassOf(p[i]) == Other;
    }
  }

  /** The one-element set `{k}` when `b` holds, else the empty set. */
  function IfSet(b: bool, k: CharClass): set<CharClass> {
    if b then {k} else {}
  }

  /** The set of present classes, assembled one class at a time. */
  lemma PresentClassesAsUnion(p: string)
    ensures PresentClasses(p) ==
      IfSet(HasClass(p, Upper), Upper) + IfSet(HasClass(p, Lower), Lower) +
      IfSet(HasClass(p, Digit), Digit) + IfSet(HasClass(p, Other), Other)
  {
    var rhs := IfSet(HasClass(p, Upper), Upper) + IfSet(HasClass(p, Lower), Lower) +
      IfSet(HasClass(p, Digit), Digit) + IfSet(HasClass(p, Other), Other);
    forall k: CharClass ensures k in PresentClasses(p) <==> k in rhs {
      assert k.Upper? || k.Lower? || k.Digit? || k.Other?;
    }
  }

  /** The meter's score is the number of distinct classes present. */
  lemma ScoreCountsClasses(p: string)
    ensures Score(p) == |PresentClasses(p)|
  {
    MatchesIffHasClass(p);
    PresentClassesAsUnion(p);
    var u := IfSet(HasClass(p, Upper), Upper);
    var l := IfSet(HasClass(p, Lower), Lower);
    var d := IfSet(HasClass(p, Digit), Digit);
    var o := IfSet(HasClass(p, Other), Other);
    assert |u + l| == |u| + |l| by { assert u * l == {}; }
    assert |u + l + d| == |u + l| + |d| by { assert (u + l) * d == {}; }
    assert |u + l + d + o| == |u + l + d| + |o| by { assert (u + l + d) * o == {}; }
  }

  /** `checkPasswordStrength(password)`. */
  function CheckStrength(p: string): (r: Strength)
    ensures r == Empty <==> p == ""
    ensures p != "" && JsLength(p) < 8 ==> r == Weak
    ensures r == Strong ==> JsLength(p) >= 8 && |PresentClasses(p)| >= 3
  {
    ScoreCountsClasses(p);
    if p == "" then Empty
    else if JsLength(p) < 8 then Weak
    else
      var score := Score(p);
      if score == 2 then Medium
      else if score >= 3 then Strong
      else Weak
  }

  /** For a password of at least eight UTF-16 units the tier depends only on
      how many classes are present: two give `medium`, three or more give
      `strong`, fewer give `weak`. */
  lemma StrengthByClassCount(p: string)
    requires JsLength(p) >= 8
    ensures CheckStrength(p) == Medium <==> |PresentClasses(p)| == 2
    ensures CheckStrength(p) == Strong <==> |PresentClasses(p)| >= 3
    ensures CheckStrength(p) == Weak <==> |PresentClasses(p)| <= 1
  {
    ScoreCountsClasses(p);
  }
}

=== FILE: phone.dfy ===
/** Per-country phone-number rules of the signup page: the country table,
    `getCurrentCountryInfo`, `validatePhoneNumber` and the sanitising of typed
    phone input. */
module Phone {
  import opened Wrappers
  import opened JsText
  import opened Seqs

  /** One row of the country table: dialling code, display name and the exact
      number of national digits required. */
  datatype Country = Country(code: string, name: string, maxLength: nat)

  /** The country table, in the page's order. */
  const Countries: seq<Country> := [
    Country("+1", "US/Canada", 10),
    Country("+44", "UK", 10),
    Country("+49", "Germany", 11),
    Country("+33", "France", 9),
    Country("+61", "Australia", 9),
    Country("+81", "Japan", 10),
    Country("+86", "China", 11),
    Country("+91", "India", 10),
    Country("+52", "Mexico", 10),
    Country("+55", "Brazil", 9),
    Country("+27", "South Africa", 9),
    Country("+82", "South Korea", 10),
    Country("+39", "Italy", 10),
    Country("+34", "Spain", 9),
    Country("+7", "Russia", 10),
    Country("+60", "Malaysia", 9),
    Country("+65", "Singapore", 8),
    Country("+971", "UAE", 9),
    Country("+966", "Saudi Arabia", 9),
    Country("+20", "Egypt", 10)
  ]

  /** The country code selected when the page opens. */
  const DefaultCode: string := "+91"

  /** Row `i` is the first row of `table` carrying `code`. */
  predicate FirstWithCode(table: seq<Country>, code: string, i: int) {
    0 <= i < |table| && table[i].code == code &&
    forall j :: 0 <= j < i ==> table[j].code != code
  }

  /** `table.find(c => c.code === code)`: the first row with that code. */
  function FindIn(table: seq<Country>, code: string): (r: Option<Country>)
    ensures r.None? <==> forall i :: 0 <= i < |table| ==> table[i].code != code
    ensures r.Some? ==> exists i :: FirstWithCode(table, code, i) && table[i] == r.value
  {
    if table == [] then None
    else if table[0].code == code then Some(table[0])
    else
      var r := FindIn(table[1..], code);
      assert forall i :: 1 <= i < |table| ==> table[i] == table[1..][i - 1];
      if r.Some? then
        var i :| FirstWithCode(table[1..], code, i) && table[1..][i] == r.value;
        assert FirstWithCode(table, code, i + 1);
        r
      else r
  }

  /** The row of the country table for `code`, if any. */
  function Find(code: string): Option<Country> {
    FindIn(Countries, code)
  }

  /** `getCurrentCountryInfo()`: the selected row, falling back to the first. */
  function CurrentCountry(code: string): (c: Country)
    ensures c in Countries
    ensures Find(code).Some? ==> c == Find(code).value
    ensures Find(code).None? ==> c == Countries[0]
  {
    Find(code).GetOr(Countries[0])
  }

  /** The digit count the phone input allows for the selected country. */
  function MaxLength(code: string): nat {
    CurrentCountry(code).maxLength
  }

  /** Every row asks for between 8 and 11 digits. */
  lemma MaxLengthRange(code: string)
    ensures 8 <= MaxLength(code) <= 11
  {
    assert forall c :: c in Countries ==> 8 <= c.maxLength <= 11;
  }

  /** `${n}` for a natural number: its decimal digits. */
  function NatToString(n: nat): (s: string)
    ensures s != "" && AllDigits(s)
  {
    var d := [(('0' as int) + n % 10) as char];
    if n < 10 then d else NatToString(n / 10) + d
  }

  /** Reads a string of decimal digits back as a number. */
  function ParseDecimal(s: string): nat
    requires AllDigits(s)
  {
    if s == "" then 0
    else ParseDecimal(s[..|s| - 1]) * 10 + (s[|s| - 1] as int - '0' as int)
  }

  /** The digits written into an error message denote the number itself. */
  lemma {:induction false} NatToStringRoundTrip(n: nat)
    ensures ParseDecimal(NatToString(n)) == n
  {
    if n >= 10 {
      NatToStringRoundTrip(n / 10);
      var s := NatToString(n);
      assert s[..|s| - 1] == NatToString(n / 10);
    }
  }

  /** What `validatePhoneNumber` returns, together with what it does to the
      displayed phone error: `None` when it leaves that error alone. */
  datatype PhoneCheck = PhoneCheck(valid: bool, error: Option<string>)

  /** `validatePhoneNumber(number, countryCode)`. */
  function ValidatePhone(number: string, code: string): (r: PhoneCheck)
    ensures r.valid <==>
      Find(code).Some? && number != "" && AllDigits(number) && |number| == Find(code).value.maxLength
    ensures r.error.None? <==> Find(code).None?
    ensures r.error.Some? ==> (r.error.value == "" <==> r.valid)
    ensures Find(code).Some? && !(number != "" && AllDigits(number)) ==>
      r.error == Some("Phone number should contain only digits")
    ensures Find(code).Some? && number != "" && AllDigits(number) && |number| != Find(code).value.maxLength ==>
      r.error == Some("Phone number for " + Find(code).value.name + " should be exactly " +
                      NatToString(Find(code).value.maxLength) + " digits")
  {
    match Find(code)
    case None => PhoneCheck(false, None)
    case Some(c) =>
      if !(number != "" && AllDigits(number)) then
        PhoneCheck(false, Some("Phone number should contain only digits"))
      else
        AllDigitsInBmp(number);
        JsLengthOfBmp(number);
        if JsLength(number) != c.maxLength then
          PhoneCheck(false, Some("Phone number for " + c.name + " should be exactly " +
                                 NatToString(c.maxLength) + " digits"))
        else
          PhoneCheck(true, Some(""))
  }

  /** The count in the wrong-length message is the selected country's digit
      count, written in decimal: a number from 8 to 11. */
  lemma LengthMessageCount(code: string)
    requires Find(code).Some?
    ensures ParseDecimal(NatToString(Find(code).value.maxLength)) == MaxLength(code)
    ensures 8 <= ParseDecimal(NatToString(Find(code).value.maxLength)) <= 11
  {
    NatToStringRoundTrip(Find(code).value.maxLength);
    MaxLengthRange(code);
  }

  /** `value.replace(/\D/g, "")`: the ASCII digits of `v`, in order. */
  function StripNonDigits(v: string): (r: string)
    ensures AllDigits(r)
    ensures IsSubseq(r, v)
    ensures forall i :: 0 <= i < |v| && IsAsciiDigit(v[i]) ==> v[i] in r
    ensures forall c :: multiset(r)[c] == if IsAsciiDigit(c) then multiset(v)[c] else 0
  {
    FilterIsSubseq(v, IsAsciiDigit);
    FilterMembers(v, IsAsciiDigit);
    Filter(v, IsAsciiDigit)
  }

  /** Stripping leaves a string of digits alone, so it is idempotent. */
  lemma StripDigitsIsIdentity(v: string)
    requires AllDigits(v)
    ensures StripNonDigits(v) == v
  {
    FilterAllPass(v, IsAsciiDigit);
  }

  /** The stored phone number is well formed for the selected country: only
      digits, and no more of them than the country allows. */
  predicate PhoneOk(code: string, number: string) {
    AllDigits(number) && |number| <= MaxLength(code)
  }

  /** The phone field and its error line. */
  datatype PhoneEntry = PhoneEntry(number: string, error: string)

  /** The phone branch of `handleInputChange`: strip non-digits; accept the
      result only when it fits the selected country, re-validating it; ignore
      the keystroke otherwise. */
  function TypePhone(code: string, e: PhoneEntry, typed: string): (r: PhoneEntry)
    ensures var digits := StripNonDigits(typed);
      if |digits| <= MaxLength(code) then r.number == digits else r == e
    ensures PhoneOk(code, e.number) ==> PhoneOk(code, r.number)
    ensures var digits := StripNonDigits(typed);
      |digits| <= MaxLength(code) ==>
        r.error == if Find(code).Some? then ValidatePhone(digits, code).error.value else e.error
  {
    var digits := StripNonDigits(typed);
    AllDigitsInBmp(digits);
    JsLengthOfBmp(digits);
    if JsLength(digits) <= MaxLength(code) then
      PhoneEntry(digits, ValidatePhone(digits, code).error.GetOr(e.error))
    else e
  }

  /** After an accepted keystroke the error line reports on the new number:
      empty exactly when it is already a complete, valid number. */
  lemma TypePhoneErrorLine(code: string, e: PhoneEntry, typed: string)
    requires Find(code).Some?
    requires |StripNonDigits(typed)| <= MaxLength(code)
    ensures var r := TypePhone(code, e, typed);
      r.error == "" <==> ValidatePhone(r.number, code).valid
  {
    var digits := StripNonDigits(typed);
    var chk := ValidatePhone(digits, code);
    assert chk.error.Some?;
    AllDigitsInBmp(digits);
    JsLengthOfBmp(digits);
    assert TypePhone(code, e, typed) == PhoneEntry(digits, chk.error.value);
  }
}

=== FILE: seqs.dfy ===
/** `Array.prototype.filter` over Dafny sequences, and the order-preserving
    subsequence relation it establishes. */
module Seqs {

  /** `s.filter(p)`: the elements of `s` that satisfy `p`, in their original
      order. Every value occurs in the result as often as in `s` when it
      passes the test, and not at all otherwise. */
  function Filter<T(==,!new)>(s: seq<T>, p: T -> bool): (r: seq<T>)
    ensures |r| <= |s|
    ensures forall x :: multiset(r)[x] == if p(x) then multiset(s)[x] else 0
  {
    if s == [] then []
    else
      var rest := Filter(s[1..], p);
      var head := if p(s[0]) then [s[0]] else [];
      assert s == [s[0]] + s[1..];
      assert multiset(s) == multiset([s[0]]) + multiset(s[1..]);
      assert multiset(head + rest) == multiset(head) + multiset(rest);
      head + rest
  }

  /** What the counts say about membership: everything kept is in `s` and
      passes, and everything in `s` that passes is kept. */
  lemma FilterMembers<T(!new)>(s: seq<T>, p: T -> bool)
    ensures forall i :: 0 <= i < |Filter(s, p)| ==> Filter(s, p)[i] in s && p(Filter(s, p)[i])
    ensures forall i :: 0 <= i < |s| && p(s[i]) ==> s[i] in Filter(s, p)
  {
    var r := Filter(s, p);
    forall i | 0 <= i < |r| ensures r[i] in s && p(r[i]) {
      assert r[i] in multiset(r);
    }
    forall i | 0 <= i < |s| && p(s[i]) ensures s[i] in r {
      assert s[i] in multiset(s);
    }
  }

  /** `a` is obtained from `b` by deleting elements, without reordering. */
  predicate IsSubseq<T(==)>(a: seq<T>, b: seq<T>)
    decreases |b|
  {
    if a == [] then true
    else if b == [] then false
    else (a[0] == b[0] && IsSubseq(a[1..], b[1..])) || IsSubseq(a, b[1..])
  }

  /** Filtering keeps the relative order of what it keeps. */
  lemma {:induction false} FilterIsSubseq<T(!new)>(s: seq<T>, p: T -> bool)
    ensures IsSubseq(Filter(s, p), s)
  {
    if s != [] {
      FilterIsSubseq(s[1..], p);
      var rest := Filter(s[1..], p);
      if p(s[0]) {
        assert Filter(s, p) == [s[0]] + rest;
        assert ([s[0]] + rest)[1..] == rest;
      } else {
        assert Filter(s, p) == rest;
        if rest != [] {
          assert IsSubseq(rest, s[1..]);
        }
      }
    }
  }

  /** A filter every element passes is the identity. */
  lemma {:induction false} FilterAllPass<T(!new)>(s: seq<T>, p: T -> bool)
    requires forall i :: 0 <= i < |s| ==> p(s[i])
    ensures Filter(s, p) == s
  {
    if s != [] {
      FilterAllPass(s[1..], p);
      assert [s[0]] + s[1..] == s;
    }
  }

  /** Filtering twice by the same test is filtering once. */
  lemma FilterIdempotent<T(!new)>(s: seq<T>, p: T -> bool)
    ensures Filter(Filter(s, p), p) == Filter(s, p)
  {
    var r := Filter(s, p);
    FilterMembers(s, p);
    FilterAllPass(r, p);
  }

  /** Two filters commute: the order in which two tests are applied is irrelevant. */
  lemma {:induction false} FilterCommutes<T(!new)>(s: seq<T>, p: T -> bool, q: T -> bool)
    ensures Filter(Filter(s, p), q) == Filter(Filter(s, q), p)
  {
    if s != [] {
      FilterCommutes(s[1..], p, q);
      FilterSplit(s, p);
      FilterSplit(s, q);
      var hp := if p(s[0]) then [s[0]] else [];
      var hq := if q(s[0]) then [s[0]] else [];
      FilterConcat(hp, Filter(s[1..], p), q);
      FilterConcat(hq, Filter(s[1..], q), p);
    }
  }

  /** The recursive step of `Filter`, as an equation. */
  lemma FilterSplit<T(!new)>(s: seq<T>, p: T -> bool)
    requires s != []
    ensures Filter(s, p) == (if p(s[0]) then [s[0]] else []) + Filter(s[1..], p)
  {
  }

  /** Filtering distributes over concatenation. */
  lemma {:induction false} FilterConcat<T(!new)>(a: seq<T>, b: seq<T>, p: T -> bool)
    ensures Filter(a + b, p) == Filter(a, p) + Filter(b, p)
  {
    if a == [] {
      assert a + b == b;
    } else {
      assert (a + b)[0] == a[0];
      assert (a + b)[1..] == a[1..] + b;
      FilterConcat(a[1..], b, p);
    }
  }
}

=== FILE: signup.dfy ===
/** The two-step signup page: the account form, then email verification with
    a six-digit code. Each handler is atomic over its server reply, which is a
    parameter; it returns the new page state and the request it sent, if any. */
module Signup {
  import opened Wrappers
  import opened Gateway
  import opened JsText
  import opened Password
  import opened Phone
  import opened Otp

  /** The form fields (`user`). */
  datatype User = User(email: string, password: string, phoneNumber: string,
                       firstName: string, countryCode: string)

  /** The text fields `handleInputChange` serves, by their `name`. */
  datatype Field = Email | PasswordText | PhoneNumber | FirstName

  /** Which of the two screens is shown (`isVerificationStep`). */
  datatype Step = FormEntry | Verification

  /** The page state. `verified` records that the server accepted the code and
      the redirect to the login page has been scheduled. */
  datatype State = State(user: User, phoneError: string, error: string, otpMessage: string,
                         userId: string, step: Step, otp: OtpBox, verificationEmail: string,
                         verified: bool)

  /** The page as it opens. */
  const Init: State :=
    State(User("", "", "", "", DefaultCode), "", "", "", "", FormEntry, Otp.Initial, "", false)

  /** The three requests the page can send. */
  datatype Request =
    | CreateAccount(email: string, password: string, phoneNumber: string,
                    firstName: string, countryCode: string)   // POST /api/auth/signup
    | CheckCode(userId: string, otp: string)                   // PUT /api/auth/signup
    | SendCodeAgain(email: string, userId: string)             // PATCH /api/auth/signup

  /** A handler's effect: the new state and what went over the wire. */
  datatype Outcome = Outcome(state: State, sent: Option<Request>)

  /** The state the page keeps consistent: well-formed code boxes and a stored
      phone number fit for the selected country. */
  predicate Inv(s: State) {
    WellFormed(s.otp) && PhoneOk(s.user.countryCode, s.user.phoneNumber)
  }

  lemma InitInv()
    ensures Inv(Init)
  {
    InitialWellFormed();
  }

  /** The password tier the meter shows; an effect recomputes it on every
      password change, so it is a function of the password. */
  function Meter(s: State): Strength {
    CheckStrength(s.user.password)
  }

  /** `handleInputChange`: a phone keystroke goes through `TypePhone`; any other
      field takes the value as typed. */
  function InputChange(s: State, field: Field, value: string): (r: State)
    ensures field != PhoneNumber ==> r.user.phoneNumber == s.user.phoneNumber && r.phoneError == s.phoneError
    ensures field == PhoneNumber ==> r.user.email == s.user.email && r.user.password == s.user.password
    ensures r.user.countryCode == s.user.countryCode && r.step == s.step && r.otp == s.otp
    ensures PhoneOk(s.user.countryCode, s.user.phoneNumber) ==> PhoneOk(r.user.countryCode, r.user.phoneNumber)
    ensures field == Email ==> r.user.email == value && r.(user := r.user.(email := s.user.email)) == s
    ensures field == PasswordText ==> r.user.password == value && r.(user := r.user.(password := s.user.password)) == s
    ensures field == FirstName ==> r.user.firstName == value && r.(user := r.user.(firstName := s.user.firstName)) == s
    ensures field == PhoneNumber ==>
      && PhoneEntry(r.user.phoneNumber, r.phoneError) ==
           TypePhone(s.user.countryCode, PhoneEntry(s.user.phoneNumber, s.phoneError), value)
      && r.(user := r.user.(phoneNumber := s.user.phoneNumber), phoneError := s.phoneError) == s
  {
    match field
    case Email => s.(user := s.user.(email := value))
    case PasswordText => s.(user := s.user.(password := value))
    case FirstName => s.(user := s.user.(firstName := value))
    case PhoneNumber =>
      var e := TypePhone(s.user.countryCode, PhoneEntry(s.user.phoneNumber, s.phoneError), value);
      s.(user := s.user.(phoneNumber := e.number), phoneError := e.error)
  }

  /** `setCountryCode`: switching country empties the number and its error. */
  function SelectCountry(s: State, code: string): (r: State)
    ensures r.user.countryCode == code && r.user.phoneNumber == "" && r.phoneError == ""
    ensures r.user.email == s.user.email && r.user.password == s.user.password
    ensures r.step == s.step && r.otp == s.otp
    ensures PhoneOk(r.user.countryCode, r.user.phoneNumber)
  {
    s.(user := s.user.(countryCode := code, phoneNumber := ""), phoneError := "")
  }

  /** `handleSubmit`: a password weaker than `strong` or an invalid phone
      number stops the form locally; otherwise the account is posted with the
      phone number prefixed by its country code, and a success moves to the
      verification screen. */
  function Submit(s: State, reply: Reply<string>): (r: Outcome)
    ensures r.sent.Some? <==> Meter(s) == Strong && ValidatePhone(s.user.phoneNumber, s.user.countryCode).valid
    ensures r.sent.Some? ==> r.sent.value == CreateAccount(s.user.email, s.user.password,
      s.user.countryCode + s.user.phoneNumber, s.user.firstName, s.user.countryCode)
    ensures r.sent.None? ==> r.state.step == s.step
    ensures Meter(s) != Strong ==> r.state.error == "Please use a strong password for better security"
    ensures r.sent.Some? && reply.Ok? ==>
      r.state.step == Verification && r.state.verificationEmail == s.user.email &&
      r.state.userId == reply.value && r.state.error == ""
    ensures r.sent.Some? && reply.Err? ==>
      r.state.step == s.step && r.state.error == OrDefault(reply.msg, "Something went wrong")
    ensures r.state.user == s.user && r.state.otp == s.otp && r.state.verified == s.verified
  {
    if Meter(s) != Strong then
      Outcome(s.(error := "Please use a strong password for better security"), None)
    else
      var check := ValidatePhone(s.user.phoneNumber, s.user.countryCode);
      var s1 := s.(phoneError := check.error.GetOr(s.phoneError));
      if !check.valid then Outcome(s1, None)
      else
        var u := s.user;
        var req := CreateAccount(u.email, u.password, u.countryCode + u.phoneNumber, u.firstName, u.countryCode);
        var s2 := s1.(error := "");
        match reply
        case Ok(id) =>
          Outcome(s2.(userId := id, verificationEmail := u.email, step := Verification), Some(req))
        case Err(msg) =>
          Outcome(s2.(error := OrDefault(msg, "Something went wrong")), Some(req))
  }

  /** A form that fails its local checks never depends on the server. */
  lemma RejectedFormIgnoresServer(s: State, r1: Reply<string>, r2: Reply<string>)
    requires Submit(s, r1).sent.None?
    ensures Submit(s, r1) == Submit(s, r2)
  {
  }

  /** `verifyOTP`: the joined code must be six characters long, or nothing is
      sent; a success marks the account verified, a failure shows the error.
      The boxes are never touched. */
  function VerifyCode(s: State, reply: Reply<string>): (r: Outcome)
    ensures r.sent.Some? <==> JsLength(Join(s.otp.slots)) == Width
    ensures r.sent.Some? ==> r.sent.value == CheckCode(s.userId, Join(s.otp.slots))
    ensures r.sent.None? ==> r.state.error == "Please enter all 6 digits of the OTP"
    ensures r.state.verified <==> s.verified || (r.sent.Some? && reply.Ok?)
    ensures r.sent.Some? && reply.Ok? ==>
      r.state.otpMessage == OrDefault(reply.value, "Email verified successfully!")
    ensures r.sent.Some? && reply.Err? ==>
      r.state.error == OrDefault(reply.msg, "Failed to verify OTP")
    ensures r.state.otp == s.otp && r.state.step == s.step && r.state.user == s.user
  {
    var s0 := s.(error := "", otpMessage := "");
    var code := Join(s.otp.slots);
    if JsLength(code) != Width then
      Outcome(s0.(error := "Please enter all 6 digits of the OTP"), None)
    else
      var req := CheckCode(s.userId, code);
      match reply
      case Ok(message) =>
        Outcome(s0.(otpMessage := OrDefault(message, "Email verified successfully!"), verified := true), Some(req))
      case Err(msg) =>
        Outcome(s0.(error := OrDefault(msg, "Failed to verify OTP")), Some(req))
  }

  /** With well-formed boxes, the verify request goes out exactly when all
      six boxes are filled. */
  lemma VerifySendsIffFull(s: State, reply: Reply<string>)
    requires WellFormed(s.otp)
    ensures VerifyCode(s, reply).sent.Some? <==> forall i :: 0 <= i < Width ==> s.otp.slots[i] != ""
  {
    JoinedLengthSixIffFull(s.otp);
  }

  /** `resendOTP`: always sends the remembered email and user id. The reply's
      HTTP status is not inspected: any parsed body counts as a reply, and its
      `message`, if any, is shown; a transport failure shows a fixed text. */
  function Resend(s: State, reply: Reply<string>): (r: Outcome)
    ensures r.sent == Some(SendCodeAgain(s.verificationEmail, s.userId))
    ensures reply.Ok? ==> r.state.otpMessage == reply.value && r.state.error == ""
    ensures reply.Err? ==> r.state.error == "Failed to resend OTP" && r.state.otpMessage == ""
    ensures r.state.otp == s.otp && r.state.step == s.step && r.state.user == s.user
    ensures r.state.verified == s.verified && r.state.userId == s.userId
  {
    var s0 := s.(error := "", otpMessage := "");
    var req := SendCodeAgain(s.verificationEmail, s.userId);
    match reply
    case Ok(message) => Outcome(if message != "" then s0.(otpMessage := message) else s0, Some(req))
    case Err(_) => Outcome(s0.(error := "Failed to resend OTP"), Some(req))
  }

  /** "Back to Sign Up": the only way from the code screen back to the form. */
  function BackToForm(s: State): (r: State)
    ensures r.step == FormEntry
    ensures r.user == s.user && r.otp == s.otp && r.userId == s.userId
    ensures r.verificationEmail == s.verificationEmail
  {
    s.(step := FormEntry)
  }

  /** Everything the user or the server can do to the page. */
  datatype Event =
    | Input(field: Field, value: string)
    | ChooseCountry(code: string)
    | SubmitForm(submitReply: Reply<string>)
    | TypeDigit(index: nat, digit: string)
    | KeyDown(key: string, at: nat)
    | PasteCode(text: string)
    | VerifyClick(verifyReply: Reply<string>)
    | ResendClick(resendReply: Reply<string>)
    | Back

  /** Events the rendered page can produce: box indices are those of the six
      inputs, and each input holds at most one character (`maxLength={1}`). */
  predicate EventOk(ev: Event) {
    match ev
    case TypeDigit(index, digit) => index < Width && |digit| <= 1
    case KeyDown(_, at) => at < Width
    case _ => true
  }

  /** One step of the page. */
  function Next(s: State, ev: Event): (r: Outcome)
    requires Inv(s) && EventOk(ev)
    ensures r.sent.Some? ==> ev.SubmitForm? || ev.VerifyClick? || ev.ResendClick?
  {
    match ev
    case Input(f, v) => Outcome(InputChange(s, f, v), None)
    case ChooseCountry(c) => Outcome(SelectCountry(s, c), None)
    case SubmitForm(reply) => Submit(s, reply)
    case TypeDigit(i, d) => Outcome(s.(otp := Type(s.otp, i, d)), None)
    case KeyDown(k, i) => Outcome(s.(otp := Backspace(s.otp, k, i)), None)
    case PasteCode(t) => Outcome(s.(otp := Paste(s.otp, t)), None)
    case VerifyClick(reply) => VerifyCode(s, reply)
    case ResendClick(reply) => Resend(s, reply)
    case Back => Outcome(BackToForm(s), None)
  }

  /** Every step keeps the code boxes well formed and the stored phone number
      made of digits only, within the selected country's length. */
  lemma NextPreservesInv(s: State, ev: Event)
    requires Inv(s) && EventOk(ev)
    ensures Inv(Next(s, ev).state)
  {
    match ev
    case TypeDigit(i, d) => TypeOneChar(s.otp, i, d);
    case KeyDown(k, i) => BackspaceWellFormed(s.otp, k, i);
    case PasteCode(t) => PasteWellFormed(s.otp, t);
    case _ =>
  }

  /** The screen changes only along the two edges of the flow: a submitted
      form the server accepted (strong password, valid phone) moves forward,
      and "Back to Sign Up" moves back. */
  lemma StepTransitions(s: State, ev: Event)
    requires Inv(s) && EventOk(ev)
    ensures var r := Next(s, ev);
      (s.step == FormEntry && r.state.step == Verification ==>
         ev.SubmitForm? && ev.submitReply.Ok? && Meter(s) == Strong &&
         ValidatePhone(s.user.phoneNumber, s.user.countryCode).valid)
    ensures var r := Next(s, ev);
      (s.step == Verification && r.state.step == FormEntry ==> ev.Back?)
  {
  }

  /** The account becomes verified only through an accepted verify request
      carrying all six digits. */
  lemma VerifiedOnlyByCode(s: State, ev: Event)
    requires Inv(s) && EventOk(ev)
    requires !s.verified && Next(s, ev).state.verified
    ensures ev.VerifyClick? && ev.verifyReply.Ok?
    ensures forall i :: 0 <= i < Width ==> s.otp.slots[i] != ""
    ensures Next(s, ev).sent == Some(CheckCode(s.userId, Join(s.otp.slots)))
  {
    VerifySendsIffFull(s, ev.verifyReply);
  }

  /** Neither verifying nor resending touches the code boxes. */
  lemma ServerStepsKeepCode(s: State, ev: Event)
    requires Inv(s) && EventOk(ev)
    requires ev.VerifyClick? || ev.ResendClick?
    ensures Next(s, ev).state.otp == s.otp
  {
  }
}

=== FILE: wrappers.dfy ===
/** Small failure-compatible datatypes shared by every component. */
module Wrappers {

  /** A value that may be absent: a `null` in the original program. */
  datatype Option<+T> = None | Some(value: T) {

    /** The carried value, or `default` when there is none (the `x || default` idiom). */
    function GetOr(default: T): T {
      match this
      case Some(v) => v
      case None => default
    }
  }
}

/**
  The remote mutation gateway: one request, one reply, no state kept between
  calls. Every server interaction in the model takes its reply as a parameter,
  so each handler is a pure function of its state and that reply.
 */
module Gateway {

  /** What a request came back with: a parsed success body, or a failure with
      the message the caller would see (`""` when the server gave none). */
  datatype Reply<+T> = Ok(value: T) | Err(msg: string)

  /** The text a caller shows for a reply: the server's text when there is
      any, otherwise the caller's own fallback (`text || fallback`). */
  function OrDefault(text: string, fallback: string): string {
    if text != "" then text else fallback
  }
}
